=== FILE: README.md ===
# BART ridership dataset preparation, modelled in Dafny

The BART ridership example ships two Python preparation scripts that build the
data behind its visualisation. This project models their core logic.

- **`pipeline/prep_dataset.py`**
  - The `GraphReader` automaton. It turns the station-to-station ridership
    matrix, one CSV row at a time, into undirected weighted edges between
    station codes.
  - Station-name standardisation through `NAME_TRANSFORMS`. This covers the
    name table and the GeoJSON.
  - The GeoJSON feature filter in front of `simplify_record`: Point features
    only, minus `EXCLUDES`.
- **`pipeline/geohash_population.py`**
  - The `GeohashEnumerator`. It walks breadth-first over geohash cells, from
    `9q9p3`, through neighbours whose first three letters are one of `9qb`,
    `9qc`, `9q8` or `9q9`.
  - `get_sum`, which reads and totals the population raster under one cell.
  - `get_sums`, which keeps the cells that could be read.

Module layout (one file each):

| module | models |
|---|---|
| `Wrappers` | `Option` and `Result`. Python's exceptions become `Failure` values. |
| `StringOrder` | Python's `<` on `str`, and `sorted([a, b])`. |
| `KeyCodec` | The tab-joined edge key and `str.split('\t')`. |
| `Cells` | `strip()`, `replace(',', '')`, and the "empty counts 0" rule for one cell. |
| `PyDict` | `dict(zip(keys, values))`: which names become keys, and that the last value wins. The order of the keys is modelled by `GraphReader.Dedup`. |
| `WeightTable` | The weight dict, as an association list in insertion order; `_add_count`, `_make_output`. |
| `GraphReader` | The reader states, `step`, `finish`, and `load_ridership_data` without the file. |
| `Stations` | `NAME_TRANSFORMS`, `load_station_names`, `simplify_record`, and `load_stations` without the file. |
| `GeohashEnumerator` | The seen-set and FIFO queue; `__next__`; a bounded run of the iterator. |
| `PopulationSums` | `read_box`, `get_sum` and `get_sums` over an abstract raster. |

Calls into code outside these files become function parameters, and no
contract depends on their behaviour. The two numpy calls are the exception:
`numpy.clip(x, 0, None)` and `numpy.sum` are simple enough to be defined
here, as `PopulationSums.Clip` and `PopulationSums.Sum`.

The parameters:

- `float()` on a cleaned cell becomes `parse: string -> Option<real>`, where `None` means it raised.
- `geolib.geohash.neighbours` becomes `neighbours`.
- `geolib.geohash.bounds` becomes `bounds`.
- The GeoTIFF `read_box` becomes `readRaw`, where `None` means `BoundaryNotInTifError`.

The reader's exceptions are the constructors of `GraphReader.ReadError`:

- `IndexError`: the header row is empty.
- `KeyError`: a row has no `exit` cell.
- `ValueError`: a cell is not a number.
- `RuntimeError`: `step` after `finish`.

`simplify_record`'s exceptions are the constructors of `Stations.StationError`.

Two behaviours of the code worth stating up front:

- `_add_count` always sorts the two codes, so every edge is undirected (`WeightTable.AddCountSymmetric`).
- `step` after `finish` raises `RuntimeError` (`GraphReader.Finish`).

## Model

| member | source | states |
|---|---|---|
| StringOrder.LessAsymmetric | pipeline/prep_dataset.py:241 | The string order that `sorted` uses never holds in both directions. |
| StringOrder.LessTotal | pipeline/prep_dataset.py:241 | Any two different codes can be compared, so `sorted` puts them in a definite order. |
| StringOrder.LessIrreflexive | pipeline/prep_dataset.py:241 | No code is smaller than itself. |
| StringOrder.SortedPair | pipeline/prep_dataset.py:241 | `sorted([a, b])` holds exactly `a` and `b`, and the second is never smaller than the first. |
| StringOrder.SortedPairSymmetric | pipeline/prep_dataset.py:241 | Sorting the pair forgets which code was the source and which the destination. |
| StringOrder.SortedPairStrict | pipeline/prep_dataset.py:241 | Two different codes sort into a strictly increasing pair. |
| KeyCodec.Split | pipeline/prep_dataset.py:257 | `split('\t')` gives at least one piece, and no piece contains a tab. |
| KeyCodec.JoinAllSplit | pipeline/prep_dataset.py:257 | Re-joining the pieces of a split with tabs gives back the string. |
| KeyCodec.SplitJoinAll | pipeline/prep_dataset.py:242 | Splitting a tab-join of tab-free pieces returns the same pieces. |
| KeyCodec.KeyPieces | pipeline/prep_dataset.py:257-258 | The two pieces `_make_output` reads from a key are tab-free. A key with a tab always has at least two pieces. |
| KeyCodec.KeyRoundTrip | pipeline/prep_dataset.py:257-258 | Splitting the key made at line 242 returns the two codes, whenever neither code contains a tab. |
| KeyCodec.KeyCollision | pipeline/prep_dataset.py:242 | Once a code contains a tab, two different pairs share one key, and splitting that key returns neither pair. |
| Cells.StripLeft | pipeline/prep_dataset.py:219 | The result is a suffix of the input. Only strippable characters were cut. The result does not start with one. |
| Cells.StripRight | pipeline/prep_dataset.py:219 | The result is a prefix of the input. Only strippable characters were cut. The result does not end with one. |
| Cells.StripIsTrimmedInfix | pipeline/prep_dataset.py:219 | `strip` keeps one contiguous piece of the cell. It removes only strippable characters on either side, and none are left at either end. |
| Cells.RemoveCommas | pipeline/prep_dataset.py:219 | After `replace(',', '')` no comma is left, and the text is no longer than before. |
| Cells.RemoveCommasKeepsOthers | pipeline/prep_dataset.py:219 | Every character other than a comma survives, as often as it occurred. |
| Cells.RemoveCommasAppend | pipeline/prep_dataset.py:219 | Removing commas works piecewise over concatenation, so the kept characters stay in order. |
| Cells.RemoveCommasNoComma | pipeline/prep_dataset.py:219 | Text without commas is left unchanged. |
| Cells.RemoveCommasEmpty | pipeline/prep_dataset.py:219 | Removing commas leaves nothing exactly when the text was commas only. |
| Cells.CellCount | pipeline/prep_dataset.py:219-220 | An empty cleaned cell counts 0. Otherwise the count is what `float()` returns for the cleaned text, and a cell `float()` rejects is a `NotANumber` failure carrying that text. |
| Cells.CellCountZeroWhenBlank | pipeline/prep_dataset.py:219-220 | The cleaned text is empty exactly when the stripped cell is all commas. A whitespace-only cell counts 0 whatever the parser does. |
| Cells.CommasIgnored | pipeline/prep_dataset.py:219-220 | A thousands separator does not change the count: "1,234" and "1234" count the same. |
| PyDict.Dict | pipeline/prep_dataset.py:214 | `dict(zip(...))` has exactly the zipped names as keys. |
| PyDict.DictLastWins | pipeline/prep_dataset.py:214 | Under a repeated name the dict holds the value of its last occurrence. |
| PyDict.DictValues | pipeline/prep_dataset.py:214 | Every value in the dict is one of the zipped cells. |
| WeightTable.LookupFindsKeys | pipeline/prep_dataset.py:243 | `weights.get(key)` finds a value exactly when the table holds that key. |
| WeightTable.UpsertKeys | pipeline/prep_dataset.py:243-244 | The dict's key order: a new key goes to the end, and existing keys keep their places. |
| WeightTable.UpsertLookup | pipeline/prep_dataset.py:243-244 | The updated key holds `get(key, 0) + count`. Every other key keeps its value. |
| WeightTable.UpsertTotal | pipeline/prep_dataset.py:243-244 | The table's total weight grows by exactly `count`. |
| WeightTable.UpsertDistinct | pipeline/prep_dataset.py:244 | Assigning into the dict never creates a second entry for a key. |
| WeightTable.AddCount | pipeline/prep_dataset.py:231-244 | `_add_count` adds `count` to the sorted pair's weight, starting from 0. All other weights are unchanged, the total grows by `count`, and a new pair goes last in key order. |
| WeightTable.AddCountSymmetric | pipeline/prep_dataset.py:241-244 | Adding a journey from A to B has the same effect as adding one from B to A. |
| WeightTable.MakeOutput | pipeline/prep_dataset.py:246-258 | The edge carries the entry's count. Its endpoints are the key's two codes when neither contains a tab. |
| WeightTable.Edges | pipeline/prep_dataset.py:186-188 | `finish` gives one edge per entry, in the dict's order. Each edge carries its entry's count, and its endpoints are the entry's two codes when neither contains a tab. |
| WeightTable.EdgesKeepTotal | pipeline/prep_dataset.py:186-188 | The emitted edges carry exactly the table's total weight. |
| GraphReader.New | pipeline/prep_dataset.py:158-168 | A new reader is waiting and holds no weights. |
| GraphReader.Dedup | pipeline/prep_dataset.py:216 | The keys of the row dict are the zipped column names, each once. |
| GraphReader.DedupOrder | pipeline/prep_dataset.py:214-216 | The dict keys come in the order in which each name first occurs in the zipped header. |
| GraphReader.Sources | pipeline/prep_dataset.py:216-217 | The origins used are exactly the dict keys other than `exit` and the row's exit station. Distinct keys give distinct origins. |
| GraphReader.SourcesAppend | pipeline/prep_dataset.py:216-217 | The two `filter` calls keep the order of the dict keys: filtering a concatenation concatenates the filtered parts. |
| GraphReader.SourcesSingle | pipeline/prep_dataset.py:216-217 | A single key survives exactly when it is neither `exit` nor the exit station. |
| GraphReader.Additions | pipeline/prep_dataset.py:218-221 | A row succeeds exactly when every origin cell parses. Otherwise it is a `BadCount` failure. On success there is one addition per origin, in order, each holding that cell's count. |
| GraphReader.RowAdditions | pipeline/prep_dataset.py:214-221 | A row fails with the missing-`exit` error exactly when no zipped column is named `exit`. Any other failure is a bad count. |
| GraphReader.RowAdditionsNoSelfEdge | pipeline/prep_dataset.py:215-217 | A row never adds an edge from a station to itself or from the `exit` column. Every edge goes to the row's exit station. |
| GraphReader.RowAdditionsSources | pipeline/prep_dataset.py:214-218 | The origins that contribute are exactly the zipped header names other than `exit` and the exit station, each once. |
| GraphReader.ExtraCellsIgnored | pipeline/prep_dataset.py:214 | Cells beyond the header's width change nothing, because `zip` drops them. |
| GraphReader.AddAllTotal | pipeline/prep_dataset.py:218-221 | Reading a row adds exactly the sum of its counts to the total weight. |
| GraphReader.Hits | pipeline/prep_dataset.py:241-244 | The additions of a row that land on a given sorted pair are exactly those whose sorted codes are that pair. |
| GraphReader.AddAllCount | pipeline/prep_dataset.py:218-221 | Over a whole row, each pair's `get(key, 0)` grows by exactly the counts of the additions that land on it. |
| GraphReader.AddAllFound | pipeline/prep_dataset.py:218-221 | A pair some addition lands on is present after the row. A pair no addition lands on keeps exactly what it had. |
| GraphReader.AddCountKeeps | pipeline/prep_dataset.py:231-244 | Adding an edge between two different stations keeps every key distinct and strictly sorted, and keeps the codes tab-free when the file's code cells are. |
| GraphReader.AddAllKeeps | pipeline/prep_dataset.py:218-221 | The same holds for all the additions of a row. |
| GraphReader.Step | pipeline/prep_dataset.py:170-229 | Dispatch on the state. Waiting skips its row and moves on. The origin row becomes the header, with cell 0 renamed `exit`. An empty origin row fails with `EmptyHeader` (IndexError). A data row succeeds exactly when its parsing succeeds, and otherwise fails with that parsing's own error (`MissingExit` for KeyError, `BadCount` for ValueError). On success it keeps the header and adds the row's counts to the total. `step` after `finish` always fails with `Finalized` (RuntimeError), and only then. |
| GraphReader.RowStepWeights | pipeline/prep_dataset.py:208-244 | A data row, pair by pair: each sorted pair gains exactly the counts of the row's origins that land on it, and is then present. Every pair the row does not touch keeps its weight. The gain equals `CellGain`: the cleaned cell counts of the row's eligible origins whose sorted pair with the exit station is that pair. |
| GraphReader.RowAdditionsCells | pipeline/prep_dataset.py:214-221 | On success, the additions follow the dict's key order with `exit` and the exit station filtered out. Each one goes to the cell under `exit` and carries the count read from its own origin's cell. |
| GraphReader.AdditionsGain | pipeline/prep_dataset.py:218-221 | The additions of a list of origins that land on a pair sum to the reference `CellGain`, computed from the cells alone. |
| GraphReader.RowAdditionsGain | pipeline/prep_dataset.py:214-221 | The same for a whole row, over the dict's eligible keys. |
| GraphReader.StepKeepsValid | pipeline/prep_dataset.py:170-221 | A successful step on the next row keeps the reader invariant: the header starts with `exit`, and the table has distinct, strictly sorted keys. When the code cells of the rows still to come are tab-free (the header row's origin names and each data row's `exit` cell), the codes stay tab-free. |
| GraphReader.RowAdditionsTabFree | pipeline/prep_dataset.py:214-221 | With a tab-free header and a tab-free `exit` cell, every addition's two codes are tab-free, whatever the count cells hold. |
| GraphReader.Finish | pipeline/prep_dataset.py:178-188 | `finish` moves to END and keeps the weights. Any later step fails. There is one edge per entry with that entry's count, and the edges carry the table's total weight. |
| GraphReader.FinishEdgesSorted | pipeline/prep_dataset.py:178-188 | For a valid reader with tab-free codes, each edge's endpoints are its key, the first station sorts strictly before the second, and no pair occurs twice. |
| GraphReader.StepsKeepValid | pipeline/prep_dataset.py:388-390 | Feeding any rows to a fresh reader keeps the reader invariant, and keeps the codes tab-free when the file's code cells are. |
| GraphReader.LoadRidershipEdges | pipeline/prep_dataset.py:376-392 | On a file whose code cells are tab-free (origin names in the header row, the `exit` cell of each data row; the first row and the count cells may hold tabs), every loaded edge has its source strictly before its destination, and no station pair appears twice. |
| GraphReader.FirstRowIgnored | pipeline/prep_dataset.py:190-196 | Whatever the first row holds, the loaded graph is the same. |
| Stations.StandardNameIdempotent | pipeline/prep_dataset.py:26-42 | No replacement name is itself replaced, so standardising twice changes nothing more. |
| Stations.CodesByName | pipeline/prep_dataset.py:307-323 | The name-to-code dict has exactly the standardised names of the rows as keys. |
| Stations.CodesByNameLastWins | pipeline/prep_dataset.py:323 | A standardised name maps to the code of the last row that carries it. |
| Stations.KeptFeatures | pipeline/prep_dataset.py:361-368 | Exactly the Point features whose raw name is not excluded survive the filters. |
| Stations.KeptFeaturesAppend | pipeline/prep_dataset.py:361-368 | Filtering keeps the surviving features in their original order. |
| Stations.SimplifyRecord | pipeline/prep_dataset.py:326-345 | A feature succeeds exactly when it has two coordinates and its standardised name has a code. Fewer than two coordinates fails with `MissingCoordinate` (IndexError), checked first. Otherwise an unknown standardised name fails with `UnknownStation` (KeyError). On success: latitude is coordinate 1, longitude is coordinate 0, and the code is the name's. |
| Stations.SimplifyAll | pipeline/prep_dataset.py:369-371 | The list comprehension succeeds exactly when every feature does, giving one record per feature in order. |
| Stations.LoadStationsRecords | pipeline/prep_dataset.py:348-373 | Loading succeeds exactly when every kept feature has two coordinates and a known name. Every record comes from a kept feature and carries its standardised name and code. |
| Stations.DroppedFeatureIgnored | pipeline/prep_dataset.py:361-368 | A feature the filters drop cannot change the result, even if its name is unknown. |
| GeohashEnumerator.New | pipeline/geohash_population.py:38-49 | A new enumerator has seen and queued only the start hash. |
| GeohashEnumerator.NewInv | pipeline/geohash_population.py:45-49 | A new enumerator satisfies the walk invariant. |
| GeohashEnumerator.FreshFacts | pipeline/geohash_population.py:61-72 | The loop queues each allowed, unseen neighbour once, and nothing else. |
| GeohashEnumerator.FreshAppend | pipeline/geohash_population.py:61-72 | Neighbours are queued in the order `neighbours` lists them. The later ones are checked against the seen-set as the earlier ones extended it. |
| GeohashEnumerator.FreshSingle | pipeline/geohash_population.py:61-72 | A single neighbour is queued exactly when it is allowed and not yet seen. |
| GeohashEnumerator.Next | pipeline/geohash_population.py:54-74 | Stops exactly when the queue is empty. Otherwise it returns the front. The new queue is the rest of the old queue, in order, followed by the newly queued neighbours in the order of `FreshAppend`. Those new hashes are exactly the allowed, unseen neighbours, and they join the seen-set. |
| GeohashEnumerator.NextKeepsInv | pipeline/geohash_population.py:54-74 | `__next__` keeps the invariant: returned and queued hashes are distinct, together they are the seen-set, and each is the start or has an allowed prefix. |
| GeohashEnumerator.WalkKeepsInv | pipeline/geohash_population.py:54-74 | The invariant holds after any number of `__next__` calls. |
| GeohashEnumerator.WalkExtends | pipeline/geohash_population.py:54-74 | Later calls only append to the hashes returned so far. |
| GeohashEnumerator.EnumerateFromNew | pipeline/geohash_population.py:38-74 | From a new enumerator, no hash is returned twice, the first is the start, and every hash is the start or has an allowed prefix. |
| PopulationSums.BoxCorners | pipeline/geohash_population.py:138-142 | The box handed to the raster is (longitude, latitude) for the south-west corner, then for the north-east corner. |
| PopulationSums.Clip | pipeline/geohash_population.py:118-122 | Clipping keeps every pixel in place. A negative pixel becomes exactly 0, and a non-negative pixel is unchanged. |
| PopulationSums.SumNonNegative | pipeline/geohash_population.py:148 | The sum of clipped pixels is never negative. |
| PopulationSums.ReadBox | pipeline/geohash_population.py:117-124 | `read_box` is `None` exactly when the raster rejects the box. Otherwise it is the clipped pixels. |
| PopulationSums.GetSum | pipeline/geohash_population.py:127-149 | `None` exactly when the reordered box cannot be read. Otherwise the cell carries its hash and the sum of its clipped pixels, which is never negative. |
| PopulationSums.SumsOf | pipeline/geohash_population.py:162-163 | The filter keeps exactly the readable hashes' results: nothing else, and each readable hash's result is present. |
| PopulationSums.SumsOfAppend | pipeline/geohash_population.py:162-163 | Results come out in enumeration order. |
| PopulationSums.SumsOfDistinct | pipeline/geohash_population.py:162-163 | Distinct hashes give results with distinct hashes. |
| PopulationSums.GetSums | pipeline/geohash_population.py:152-163 | Over any prefix of the walk, each cell appears at most once, lies in the allowed area or is the start, and has a non-negative population. |

## Left out

- File I/O, CSV parsing into rows, JSON and GeoJSON decoding, the SQLite writer, the CSV writer of `persist_results`, the command-line `main` functions and their argument checks. These are I/O; the model starts from rows, features and name-table rows already in memory.
- `float()`, `geolib.geohash.neighbours`, `geolib.geohash.bounds` and the GeoTIFF reader are foreign calls. They are function parameters, and no contract assumes anything about them.
- Floating point: counts and pixels are `real`, so rounding in `get(key, 0) + count` and in `numpy.sum` is not modelled. Infinity and NaN, which `float()` and the raster can produce, have no `real` value and are not modelled either.
- `MetadataRecord`, `GraphWeight`, `PopulationGridSpace` and `PopulationGrid` getters are plain field reads. `PopulationGridSpace.get_latitude`/`get_longitude` call `geolib.geohash.decode` and are not modelled. `load_population_data` and the land and database steps of `prep_dataset.py` are I/O and are not part of this model.
- GraphReader.Step: when a cell fails to parse part-way through a row, the Python reader has already added the earlier cells of that row to its dict before raising. The model returns the error without a reader, because the exception ends `load_ridership_data`, so the partly updated reader is never seen.
- WeightTable: the table is keyed by the pair of codes, and `_make_output` goes through the tab-joined string key as the code does. Codes that contain a tab would merge different pairs in the source's string-keyed dict, a case the model does not reproduce (see `KeyCodec.KeyCollision`). Station codes are two letters, so the case does not arise in the data.
- GraphReader.FinishEdgesSorted: stated only for tab-free codes, for the reason above.
- GraphReader.LoadRidershipEdges: asks every origin name of the header row to be tab-free, including names that a short data row never reaches or that equal its exit station: the condition is stated per row and cannot foresee which columns later data rows reach. Station codes are two letters, so such names do not occur in the data.
- GeohashEnumerator.Walk / Enumerate / PopulationSums.GetSums: the iterator is consumed lazily until the queue empties. The model runs a bounded number (`fuel`) of `__next__` calls. Whether the walk ends depends on what `neighbours` returns, so it is not proved.
- Cells.CellCount: it takes whatever `float()` returns for the cleaned text. Python's accepted number syntax (underscores, exponents) belongs to `parse`. `float()` can also return infinity or NaN (`inf`, `nan`), which a `real` cannot represent, so those results are not modelled.
- Stations.StandardName: it has no contract of its own, since it is a single dict lookup with a default. Its property is `Stations.StandardNameIdempotent`.

=== FILE: cells.dfy ===
/**
 * Cleaning of one ridership cell: Python's `str.strip()` followed by
 * `replace(',', '')`, and the rule that an empty cleaned cell counts 0.
 */
module Cells {
  import opened Wrappers

  /** Python's `str.isspace()` for a single character. */
  predicate IsSpace(c: char)
  {
    || c == ' ' || c == '\t' || c == '\n' || c == '\r'
    || c == '\U{0b}' || c == '\U{0c}'
    || ('\U{1c}' <= c <= '\U{1f}')
    || c == '\U{85}' || c == '\U{a0}' || c == '\U{1680}'
    || ('\U{2000}' <= c <= '\U{200a}')
    || c == '\U{2028}' || c == '\U{2029}' || c == '\U{202f}'
    || c == '\U{205f}' || c == '\U{3000}'
  }

  /** Every character of `s` is one that `strip` removes. */
  predicate AllIn(s: string, strippable: char -> bool)
  {
    forall i :: 0 <= i < |s| ==> strippable(s[i])
  }

  predicate AllSpace(s: string)
  {
    AllIn(s, IsSpace)
  }

  /** How many strippable characters `s` starts with. */
  function Leading(s: string, strippable: char -> bool): (n: nat)
    ensures n <= |s|
    ensures forall k :: 0 <= k < n ==> strippable(s[k])
    ensures n == |s| || !strippable(s[n])
  {
    if |s| > 0 && strippable(s[0]) then 1 + Leading(s[1..], strippable) else 0
  }

  /** How many strippable characters `s` ends with. */
  function Trailing(s: string, strippable: char -> bool): (n: nat)
    ensures n <= |s|
    ensures forall k :: |s| - n <= k < |s| ==> strippable(s[k])
    ensures n == |s| || !strippable(s[|s| - n - 1])
  {
    if |s| > 0 && strippable(s[|s| - 1]) then 1 + Trailing(s[..|s| - 1], strippable) else 0
  }

  /** `s.lstrip(chars)`: the suffix left after the longest prefix of strippable characters. */
  function StripLeft(s: string, strippable: char -> bool): (r: string)
    ensures |r| <= |s| && r == s[|s| - |r|..]
    ensures AllIn(s[..|s| - |r|], strippable)
    ensures |r| == 0 || !strippable(r[0])
  {
    s[Leading(s, strippable)..]
  }

  /** `s.rstrip(chars)`: the prefix left after the longest suffix of strippable characters. */
  function StripRight(s: string, strippable: char -> bool): (r: string)
    ensures |r| <= |s| && r == s[..|r|]
    ensures AllIn(s[|r|..], strippable)
    ensures |r| == 0 || !strippable(r[|r| - 1])
  {
    s[..|s| - Trailing(s, strippable)]
  }

  /** `s.strip()`: whitespace removed from both ends. */
  function Strip(s: string): string
  {
    StripRight(StripLeft(s, IsSpace), IsSpace)
  }

  /**
   * Stripping keeps a contiguous piece of the input, drops only strippable
   * characters around it, and leaves none at either end.
   */
  lemma StripIsTrimmedInfix(s: string, strippable: char -> bool)
    ensures var l := StripLeft(s, strippable);
            var r := StripRight(l, strippable);
            var i := |s| - |l|;
            && i + |r| <= |s| && r == s[i..i + |r|]
            && AllIn(s[..i], strippable) && AllIn(s[i + |r|..], strippable)
            && (|r| == 0 || (!strippable(r[0]) && !strippable(r[|r| - 1])))
  {
  }

  /** `s.replace(',', '')`. */
  function RemoveCommas(s: string): (r: string)
    ensures ',' !in r
    ensures |r| <= |s|
  {
    if |s| == 0 then ""
    else if s[0] == ',' then RemoveCommas(s[1..])
    else [s[0]] + RemoveCommas(s[1..])
  }

  /** Every character other than a comma survives, as often as it occurred. */
  lemma {:induction false} RemoveCommasKeepsOthers(s: string, c: char)
    requires c != ','
    ensures multiset(RemoveCommas(s))[c] == multiset(s)[c]
    decreases |s|
  {
    if |s| > 0 {
      assert s == [s[0]] + s[1..];
      RemoveCommasKeepsOthers(s[1..], c);
    }
  }

  /** Removing commas commutes with concatenation, so the kept characters stay in order. */
  lemma {:induction false} RemoveCommasAppend(a: string, b: string)
    ensures RemoveCommas(a + b) == RemoveCommas(a) + RemoveCommas(b)
    decreases |a|
  {
    if |a| > 0 {
      assert (a + b)[1..] == a[1..] + b;
      RemoveCommasAppend(a[1..], b);
    } else {
      assert a + b == b;
    }
  }

  /** A string without commas is left unchanged. */
  lemma {:induction false} RemoveCommasNoComma(s: string)
    requires ',' !in s
    ensures RemoveCommas(s) == s
    decreases |s|
  {
    if |s| > 0 {
      RemoveCommasNoComma(s[1..]);
    }
  }

  /** Removing commas leaves nothing exactly when the input is commas only. */
  lemma {:induction false} RemoveCommasEmpty(s: string)
    ensures RemoveCommas(s) == "" <==> forall i :: 0 <= i < |s| ==> s[i] == ','
    decreases |s|
  {
    if |s| > 0 {
      RemoveCommasEmpty(s[1..]);
      if RemoveCommas(s) == "" {
        assert s[0] == ',';
        forall i | 0 <= i < |s| ensures s[i] == ',' {
          if i > 0 { assert s[i] == s[1..][i - 1]; }
        }
      }
    }
  }

  /** The text handed to the number parser: stripped, then without commas. */
  function Clean(cell: string): string
  {
    RemoveCommas(Strip(cell))
  }

  /** Why a cell could not be read as a count. */
  datatype CellError = NotANumber(text: string)

  /**
   * The count a cell contributes: 0 when the cleaned text is empty, otherwise
   * whatever `float()` makes of it.  `parse` stands for `float()`: `None`
   * means that it raised.
   */
  function CellCount(cell: string, parse: string -> Option<real>): (r: Result<real, CellError>)
    ensures Clean(cell) == "" ==> r == Success(0.0)
    ensures Clean(cell) != "" && parse(Clean(cell)).Some? ==> r == Success(parse(Clean(cell)).value)
    ensures Clean(cell) != "" && parse(Clean(cell)).None? ==> r == Failure(NotANumber(Clean(cell)))
  {
    CountOfText(Clean(cell), parse)
  }

  /** `0 if text == '' else float(text)` on already cleaned text. */
  function CountOfText(text: string, parse: string -> Option<real>): Result<real, CellError>
  {
    if text == "" then Success(0.0)
    else match parse(text)
      case None => Failure(NotANumber(text))
      case Some(v) => Success(v)
  }

  /**
   * A cell counts 0 without consulting the parser exactly when, once stripped,
   * it holds nothing but commas (so blank cells and "," count 0, while ", ,"
   * goes to the parser as " ").
   */
  lemma CellCountZeroWhenBlank(cell: string, parse: string -> Option<real>)
    ensures Clean(cell) == "" <==> forall i :: 0 <= i < |Strip(cell)| ==> Strip(cell)[i] == ','
    ensures AllSpace(cell) ==> CellCount(cell, parse) == Success(0.0)
  {
    RemoveCommasEmpty(Strip(cell));
    if AllSpace(cell) {
      StripLeftAll(cell, IsSpace);
    }
  }

  lemma {:induction false} StripLeftAll(s: string, strippable: char -> bool)
    requires AllIn(s, strippable)
    ensures StripLeft(s, strippable) == ""
    decreases |s|
  {
    if |s| > 0 {
      StripLeftAll(s[1..], strippable);
    }
  }

  lemma NoSpaceEndsStripped(s: string)
    requires |s| > 0 && !IsSpace(s[0]) && !IsSpace(s[|s| - 1])
    ensures Strip(s) == s
  {
  }

  /** Thousands separators are ignored: "1,234" and "1234" count the same. */
  lemma CommasIgnored(a: string, b: string, parse: string -> Option<real>)
    requires ',' !in a && ',' !in b
    requires |a| > 0 && !IsSpace(a[0]) && |b| > 0 && !IsSpace(b[|b| - 1])
    ensures CellCount(a + "," + b, parse) == CellCount(a + b, parse)
  {
    CleanDropsInnerComma(a, b);
    SameCleanSameCount(a + "," + b, a + b, parse);
  }

  lemma SameCleanSameCount(x: string, y: string, parse: string -> Option<real>)
    requires Clean(x) == Clean(y)
    ensures CellCount(x, parse) == CellCount(y, parse)
  {
  }

  lemma CleanDropsInnerComma(a: string, b: string)
    requires ',' !in a && ',' !in b
    requires |a| > 0 && !IsSpace(a[0]) && |b| > 0 && !IsSpace(b[|b| - 1])
    ensures Clean(a + "," + b) == a + b == Clean(a + b)
  {
    CleanJoined(a, ",", b);
    CleanJoined(a, "", b);
    assert a + "" + b == a + b;
    RemoveInnerComma(a, b);
    RemoveCommasAppend(a, b);
    RemoveCommasNoComma(a);
    RemoveCommasNoComma(b);
  }

  /** Text that starts and ends with non-space characters is only stripped of its commas. */
  lemma CleanJoined(a: string, middle: string, b: string)
    requires |a| > 0 && !IsSpace(a[0]) && |b| > 0 && !IsSpace(b[|b| - 1])
    ensures Clean(a + middle + b) == RemoveCommas(a + middle + b)
  {
    var s := a + middle + b;
    assert s[0] == a[0];
    assert s[|s| - 1] == b[|b| - 1];
    NoSpaceEndsStripped(s);
  }

  lemma RemoveInnerComma(a: string, b: string)
    requires ',' !in a && ',' !in b
    ensures RemoveCommas(a + "," + b) == a + b
  {
    var ac := a + ",";
    RemoveCommasAppend(ac, b);
    RemoveCommasAppend(a, ",");
    assert RemoveCommas(",") == "";
    RemoveCommasNoComma(a);
    RemoveCommasNoComma(b);
    assert RemoveCommas(ac) == a;
  }
}

=== FILE: geohash_enumerator.dfy ===
/**
 * The breadth-first walk over geohash cells that feeds the population grid:
 * a seen-set and a FIFO queue, both seeded with the start hash; each step
 * hands out the front of the queue and enqueues its unseen neighbours whose
 * three-letter prefix lies in the allowed area.  The geohash library's
 * `neighbours` is a parameter.
 */
module GeohashEnumerator {
  import opened Wrappers

  /** Three-letter geohash prefixes covering the area of interest. */
  const AllowedThreeLetters: set<string> := {"9qb", "9qc", "9q8", "9q9"}

  /** The hash the walk starts from by default. */
  const StartGeohash: string := "9q9p3"

  /** `x[:3]`: the first three characters, or the whole string when shorter. */
  function Prefix3(s: string): string
  {
    if |s| <= 3 then s else s[..3]
  }

  /** A neighbour may join the walk only inside the allowed prefixes. */
  predicate Allowed(s: string)
  {
    Prefix3(s) in AllowedThreeLetters
  }

  /** `_geohashes_seen` and `_geohashes_waiting`. */
  datatype Enumerator = Enumerator(seen: set<string>, waiting: seq<string>)

  /** `GeohashEnumerator(start)`: the start hash alone is seen and queued. */
  function New(start: string): (e: Enumerator)
    ensures e.seen == {start} && e.waiting == [start]
  {
    Enumerator({start}, [start])
  }

  predicate Distinct(s: seq<string>)
  {
    forall i, j :: 0 <= i < j < |s| ==> s[i] != s[j]
  }

  function SetOf(s: seq<string>): set<string>
  {
    set x | x in s
  }

  /**
   * The hashes the loop over `new_neighbors` enqueues, in order.  The filter
   * is lazy, so each neighbour is checked against the seen-set as updated by
   * the ones before it, and a neighbour listed twice is queued once.
   */
  function Fresh(seen: set<string>, neighbours: seq<string>): seq<string>
    decreases |neighbours|
  {
    if |neighbours| == 0 then []
    else
      var n := neighbours[0];
      if Allowed(n) && n !in seen then [n] + Fresh(seen + {n}, neighbours[1..])
      else Fresh(seen, neighbours[1..])
  }

  /**
   * The loop queues each allowed, unseen neighbour exactly once, and nothing
   * else.
   */
  lemma {:induction false} FreshFacts(seen: set<string>, neighbours: seq<string>)
    ensures Distinct(Fresh(seen, neighbours))
    ensures forall a :: a in Fresh(seen, neighbours) ==> a in neighbours && Allowed(a) && a !in seen
    ensures forall n :: n in neighbours && Allowed(n) && n !in seen ==> n in Fresh(seen, neighbours)
    decreases |neighbours|
  {
    if |neighbours| > 0 {
      var n := neighbours[0];
      assert neighbours == [n] + neighbours[1..];
      if Allowed(n) && n !in seen {
        FreshFacts(seen + {n}, neighbours[1..]);
        var rest := Fresh(seen + {n}, neighbours[1..]);
        assert n !in rest;
        var added := [n] + rest;
        forall i, j | 0 <= i < j < |added| ensures added[i] != added[j] {
          assert added[j] == rest[j - 1];
          if i > 0 { assert added[i] == rest[i - 1]; }
        }
      } else {
        FreshFacts(seen, neighbours[1..]);
      }
    }
  }

  /**
   * Scanning neighbours in two parts: the second part is checked against the
   * seen-set as extended by the first part's additions, so the queued hashes
   * keep the order in which `neighbours` lists them.
   */
  lemma {:induction false} FreshAppend(seen: set<string>, a: seq<string>, b: seq<string>)
    ensures Fresh(seen, a + b) == Fresh(seen, a) + Fresh(seen + SetOf(Fresh(seen, a)), b)
    decreases |a|
  {
    if |a| == 0 {
      assert a + b == b;
      assert seen + SetOf([]) == seen;
    } else {
      var n := a[0];
      assert (a + b)[0] == n && (a + b)[1..] == a[1..] + b;
      if Allowed(n) && n !in seen {
        var rest := Fresh(seen + {n}, a[1..]);
        assert Fresh(seen, a) == [n] + rest;
        assert Fresh(seen, a + b) == [n] + Fresh(seen + {n}, a[1..] + b);
        FreshAppend(seen + {n}, a[1..], b);
        SetOfCons(n, rest);
        assert seen + {n} + SetOf(rest) == seen + SetOf(Fresh(seen, a));
      } else {
        assert Fresh(seen, a) == Fresh(seen, a[1..]);
        assert Fresh(seen, a + b) == Fresh(seen, a[1..] + b);
        FreshAppend(seen, a[1..], b);
      }
    }
  }

  lemma SetOfCons(n: string, rest: seq<string>)
    ensures SetOf([n] + rest) == {n} + SetOf(rest)
  {
  }

  /** A single neighbour is queued exactly when it is allowed and not yet seen. */
  lemma FreshSingle(seen: set<string>, n: string)
    ensures Fresh(seen, [n]) == if Allowed(n) && n !in seen then [n] else []
  {
    assert [n][1..] == [];
  }

  /**
   * `__next__`: `None` (StopIteration) on an empty queue; otherwise the front
   * hash, with the queue's other hashes kept in order ahead of the newly
   * enqueued neighbours, each of which is marked seen as it is queued.
   */
  function Next(e: Enumerator, neighbours: string -> seq<string>): (r: Option<(string, Enumerator)>)
    ensures r.None? <==> |e.waiting| == 0
    ensures r.Some? ==> r.value.0 == e.waiting[0]
    ensures r.Some? ==> r.value.1.waiting == e.waiting[1..] + Fresh(e.seen, neighbours(e.waiting[0]))
    ensures r.Some? ==> forall h :: h in r.value.1.waiting[|e.waiting| - 1..] <==>
                          h in neighbours(e.waiting[0]) && Allowed(h) && h !in e.seen
    ensures r.Some? ==> r.value.1.seen == e.seen + SetOf(r.value.1.waiting[|e.waiting| - 1..])
  {
    if |e.waiting| == 0 then None
    else
      var front := e.waiting[0];
      var added := Fresh(e.seen, neighbours(front));
      FreshFacts(e.seen, neighbours(front));
      var waiting := e.waiting[1..] + added;
      assert waiting[|e.waiting| - 1..] == added;
      Some((front, Enumerator(e.seen + SetOf(added), waiting)))
  }

  /**
   * The walk's invariant, given the hashes `yielded` so far: yielded and
   * queued hashes are all distinct, together they are exactly the seen-set,
   * and every seen hash is the start or carries an allowed prefix.
   */
  predicate Inv(start: string, yielded: seq<string>, e: Enumerator)
  {
    && Distinct(yielded + e.waiting)
    && e.seen == SetOf(yielded) + SetOf(e.waiting)
    && (forall h :: h in e.seen ==> h == start || Allowed(h))
  }

  lemma NewInv(start: string)
    ensures Inv(start, [], New(start))
  {
  }

  /** One `__next__` keeps the invariant, with the returned hash moved to `yielded`. */
  lemma NextKeepsInv(start: string, yielded: seq<string>, e: Enumerator, neighbours: string -> seq<string>)
    requires Inv(start, yielded, e)
    requires Next(e, neighbours).Some?
    ensures Inv(start, yielded + [Next(e, neighbours).value.0], Next(e, neighbours).value.1)
  {
    var front := e.waiting[0];
    var added := Fresh(e.seen, neighbours(front));
    var r := Next(e, neighbours).value.1;
    assert r.waiting == e.waiting[1..] + added;
    var y := yielded + [front];
    assert e.waiting == [front] + e.waiting[1..];
    assert y + r.waiting == (yielded + e.waiting) + added;
    assert SetOf(y) + SetOf(r.waiting) == e.seen + SetOf(added);
    FreshFacts(e.seen, neighbours(front));
    DistinctAppend(yielded + e.waiting, added, e.seen);
  }

  /** Appending distinct hashes none of which is already present keeps a list distinct. */
  lemma DistinctAppend(a: seq<string>, b: seq<string>, seen: set<string>)
    requires Distinct(a) && Distinct(b)
    requires forall x :: x in a ==> x in seen
    requires forall x :: x in b ==> x !in seen
    ensures Distinct(a + b)
  {
    var all := a + b;
    forall i, j | 0 <= i < j < |all| ensures all[i] != all[j] {
      if j >= |a| {
        if i < |a| {
          assert all[i] in a;
          assert all[j] in b;
        } else {
          assert all[i] == b[i - |a|] && all[j] == b[j - |a|];
        }
      }
    }
  }

  /**
   * Up to `fuel` further calls of `__next__` after the hashes `yielded`: all
   * hashes returned so far, and the final state.
   */
  function Walk(yielded: seq<string>, e: Enumerator, neighbours: string -> seq<string>, fuel: nat)
    : (seq<string>, Enumerator)
    decreases fuel
  {
    if fuel == 0 then (yielded, e)
    else match Next(e, neighbours)
      case None => (yielded, e)
      case Some((h, next)) => Walk(yielded + [h], next, neighbours, fuel - 1)
  }

  /** The hashes returned by the first `fuel` calls of `__next__`. */
  function Enumerate(e: Enumerator, neighbours: string -> seq<string>, fuel: nat): seq<string>
  {
    Walk([], e, neighbours, fuel).0
  }

  lemma {:induction false} WalkKeepsInv(start: string, yielded: seq<string>, e: Enumerator,
                                        neighbours: string -> seq<string>, fuel: nat)
    requires Inv(start, yielded, e)
    ensures Inv(start, Walk(yielded, e, neighbours, fuel).0, Walk(yielded, e, neighbours, fuel).1)
    decreases fuel
  {
    if fuel > 0 && Next(e, neighbours).Some? {
      var step := Next(e, neighbours).value;
      NextKeepsInv(start, yielded, e, neighbours);
      WalkKeepsInv(start, yielded + [step.0], step.1, neighbours, fuel - 1);
    }
  }

  /** The walk only ever appends: earlier answers stay in place. */
  lemma {:induction false} WalkExtends(yielded: seq<string>, e: Enumerator, neighbours: string -> seq<string>, fuel: nat)
    ensures |Walk(yielded, e, neighbours, fuel).0| >= |yielded|
    ensures Walk(yielded, e, neighbours, fuel).0[..|yielded|] == yielded
    decreases fuel
  {
    if fuel > 0 && |e.waiting| > 0 {
      WalkUnfold(yielded, e, neighbours, fuel);
      var longer := yielded + [e.waiting[0]];
      var next := Next(e, neighbours).value.1;
      WalkExtends(longer, next, neighbours, fuel - 1);
      var w := Walk(longer, next, neighbours, fuel - 1).0;
      assert w[..|longer|][..|yielded|] == w[..|yielded|];
    }
  }

  /**
   * Over any number of `__next__` calls from a fresh enumerator, no hash is
   * returned twice, the first one returned is the start, and every other
   * returned hash carries an allowed three-letter prefix.
   */
  lemma EnumerateFromNew(start: string, neighbours: string -> seq<string>, fuel: nat)
    ensures var hs := Enumerate(New(start), neighbours, fuel);
            && Distinct(hs)
            && (fuel > 0 ==> |hs| > 0 && hs[0] == start)
            && (forall i :: 0 <= i < |hs| ==> hs[i] == start || Allowed(hs[i]))
  {
    NewInv(start);
    WalkKeepsInv(start, [], New(start), neighbours, fuel);
    var (hs, last) := Walk([], New(start), neighbours, fuel);
    InvYielded(start, hs, last);
    if fuel > 0 {
      WalkStartsAtFront(New(start), neighbours, fuel);
    }
  }

  /** The hashes already returned are distinct and lie in the allowed area or are the start. */
  lemma InvYielded(start: string, yielded: seq<string>, e: Enumerator)
    requires Inv(start, yielded, e)
    ensures Distinct(yielded)
    ensures forall i :: 0 <= i < |yielded| ==> yielded[i] == start || Allowed(yielded[i])
  {
    forall i, j | 0 <= i < j < |yielded| ensures yielded[i] != yielded[j] {
      assert (yielded + e.waiting)[i] == yielded[i] && (yielded + e.waiting)[j] == yielded[j];
    }
    forall i | 0 <= i < |yielded| ensures yielded[i] == start || Allowed(yielded[i]) {
      assert yielded[i] in e.seen;
    }
  }

  /** The first hash a walk returns is the front of the queue it starts from. */
  lemma WalkStartsAtFront(e: Enumerator, neighbours: string -> seq<string>, fuel: nat)
    requires fuel > 0 && |e.waiting| > 0
    ensures |Walk([], e, neighbours, fuel).0| > 0
    ensures Walk([], e, neighbours, fuel).0[0] == e.waiting[0]
  {
    WalkUnfold([], e, neighbours, fuel);
    var first := [] + [e.waiting[0]];
    WalkExtends(first, Next(e, neighbours).value.1, neighbours, fuel - 1);
    var hs := Walk(first, Next(e, neighbours).value.1, neighbours, fuel - 1).0;
    assert hs[0] == hs[..|first|][0];
  }

  /** One call of `__next__` on a non-empty queue moves its front to the returned hashes. */
  lemma WalkUnfold(yielded: seq<string>, e: Enumerator, neighbours: string -> seq<string>, fuel: nat)
    requires fuel > 0 && |e.waiting| > 0
    ensures Walk(yielded, e, neighbours, fuel)
         == Walk(yielded + [e.waiting[0]], Next(e, neighbours).value.1, neighbours, fuel - 1)
  {
  }
}

=== FILE: graph_reader.dfy ===
/**
 * The ridership-matrix reader: an automaton fed one CSV row (a list of cells)
 * at a time.  The first row is discarded, the second names the origin station
 * of each column (its first cell is renamed `exit`), and every later row gives
 * the journeys from each origin to the exit station named in the row's `exit`
 * cell.  Counts for A to B and B to A accumulate on one undirected edge keyed
 * by the sorted pair of codes.
 */
module GraphReader {
  import opened Wrappers
  import opened StringOrder
  import opened KeyCodec
  import opened Cells
  import opened WeightTable
  import opened PyDict

  /** Name given to the first header column. */
  const ExitColumn: string := "exit"

  /** The exceptions the reader raises. */
  datatype ReadError =
    | EmptyHeader            // IndexError: the header row has no cell 0
    | MissingExit            // KeyError: a data row has no cell under `exit`
    | BadCount(text: string) // ValueError: float() rejected a cleaned cell
    | Finalized              // RuntimeError: step after finish

  /** The four automaton states, each holding what the reader keeps in it. */
  datatype Reader =
    | Waiting
    | ReadOrigin
    | ReadRow(header: seq<string>, table: Table)
    | End(table: Table)

  /** The weight table of a reader: empty until the first data row. */
  function TableOf(r: Reader): Table
  {
    match r
    case Waiting => []
    case ReadOrigin => []
    case ReadRow(_, t) => t
    case End(t) => t
  }

  /** A fresh reader: waiting for the first row, with no weights. */
  function New(): (r: Reader)
    ensures r.Waiting? && TableOf(r) == []
  {
    Waiting
  }

  function Min(a: nat, b: nat): nat
  {
    if a <= b then a else b
  }

  /**
   * `dict(zip(header, line))`: only the first `min(|header|, |line|)` columns
   * take part, and when a column name repeats the last cell under it wins.
   */
  function ZipDict(header: seq<string>, line: seq<string>): map<string, string>
  {
    var n := Min(|header|, |line|);
    Dict(header[..n], line[..n])
  }

  /** Where `x` first occurs in `s`. */
  function FirstIndex(s: seq<string>, x: string): (n: nat)
    requires x in s
    ensures n < |s| && s[n] == x
    ensures forall k :: 0 <= k < n ==> s[k] != x
  {
    if s[0] == x then 0 else 1 + FirstIndex(s[1..], x)
  }

  /** The distinct elements of a list in order of first occurrence. */
  function Dedup(s: seq<string>): (r: seq<string>)
    ensures forall x :: x in r <==> x in s
    ensures forall i, j :: 0 <= i < j < |r| ==> r[i] != r[j]
  {
    if |s| == 0 then []
    else
      var d := Dedup(s[..|s| - 1]);
      assert s == s[..|s| - 1] + [s[|s| - 1]];
      if s[|s| - 1] in d then d else d + [s[|s| - 1]]
  }

  /** A first occurrence inside a prefix is the first occurrence in the whole list. */
  lemma FirstIndexPrefix(s: seq<string>, k: nat, x: string)
    requires k <= |s| && x in s[..k]
    ensures FirstIndex(s, x) == FirstIndex(s[..k], x)
  {
    var n := FirstIndex(s[..k], x);
    assert s[n] == x;
  }

  /** The keys of the row dict come in the order of their first occurrence in the header. */
  lemma {:induction false} DedupOrder(s: seq<string>)
    ensures forall i, j :: 0 <= i < j < |Dedup(s)| ==> FirstIndex(s, Dedup(s)[i]) < FirstIndex(s, Dedup(s)[j])
    decreases |s|
  {
    if |s| > 0 {
      var k := |s| - 1;
      var init := s[..k];
      var d := Dedup(init);
      DedupOrder(init);
      var r := Dedup(s);
      assert s == init + [s[k]];
      assert r == if s[k] in d then d else d + [s[k]];
      forall i, j | 0 <= i < j < |r| ensures FirstIndex(s, r[i]) < FirstIndex(s, r[j]) {
        assert r[i] == d[i] && r[i] in init;
        FirstIndexPrefix(s, k, r[i]);
        if j < |d| {
          assert r[j] == d[j] && r[j] in init;
          FirstIndexPrefix(s, k, r[j]);
        } else {
          assert r[j] == s[k] && s[k] !in init;
          assert FirstIndex(s, r[j]) == k by {
            forall m | 0 <= m < k ensures s[m] != s[k] {
              assert s[m] == init[m];
            }
          }
        }
      }
    }
  }

  /**
   * The origin columns of a row: every key of the row dict, in dict order,
   * except `exit` itself and the row's own exit station.
   */
  function Sources(columns: seq<string>, destination: string): (r: seq<string>)
    ensures forall x :: x in r <==> x in columns && x != ExitColumn && x != destination
    ensures (forall i, j :: 0 <= i < j < |columns| ==> columns[i] != columns[j])
            ==> forall i, j :: 0 <= i < j < |r| ==> r[i] != r[j]
  {
    if |columns| == 0 then []
    else
      var rest := Sources(columns[1..], destination);
      assert columns == [columns[0]] + columns[1..];
      assert (forall i, j :: 0 <= i < j < |columns| ==> columns[i] != columns[j]) ==> columns[0] !in columns[1..];
      if columns[0] != ExitColumn && columns[0] != destination then [columns[0]] + rest else rest
  }

  /** `filter` keeps the order of the dict keys: the origins of a split list are those of each part. */
  lemma {:induction false} SourcesAppend(a: seq<string>, b: seq<string>, destination: string)
    ensures Sources(a + b, destination) == Sources(a, destination) + Sources(b, destination)
    decreases |a|
  {
    if |a| == 0 {
      assert a + b == b;
    } else {
      assert (a + b)[0] == a[0] && (a + b)[1..] == a[1..] + b;
      SourcesAppend(a[1..], b, destination);
    }
  }

  /** A single column is kept exactly when it is neither `exit` nor the exit station. */
  lemma SourcesSingle(column: string, destination: string)
    ensures Sources([column], destination)
         == if column != ExitColumn && column != destination then [column] else []
  {
    assert [column][1..] == [];
  }

  /** One call of `_add_count` made while reading a row. */
  datatype Addition = Addition(source: string, destination: string, count: real)

  /** The counts of the given origin columns, stopping at the first unreadable cell. */
  function Additions(sources: seq<string>, destination: string, row: map<string, string>,
                     parse: string -> Option<real>): (r: Result<seq<Addition>, ReadError>)
    requires forall s :: s in sources ==> s in row
    ensures r.Success? <==> forall i :: 0 <= i < |sources| ==> CellCount(row[sources[i]], parse).Success?
    ensures r.Failure? ==> r.error.BadCount?
    ensures r.Success? ==> |r.value| == |sources|
    ensures r.Success? ==> forall i :: 0 <= i < |sources| ==>
              r.value[i] == Addition(sources[i], destination, CellCount(row[sources[i]], parse).value)
  {
    if |sources| == 0 then Success([])
    else
      var head := CellCount(row[sources[0]], parse);
      var tail := Additions(sources[1..], destination, row, parse);
      if head.Failure? then Failure(BadCount(head.error.text))
      else if tail.Failure? then tail
      else Success([Addition(sources[0], destination, head.value)] + tail.value)
  }

  /**
   * `_on_read_row`'s parsing: the exit station is the cell under `exit`, and
   * every other origin column except the exit station's own contributes its
   * cleaned count, in dict order.
   */
  function RowAdditions(header: seq<string>, line: seq<string>, parse: string -> Option<real>)
    : (r: Result<seq<Addition>, ReadError>)
    ensures r == Failure(MissingExit) <==> ExitColumn !in header[..Min(|header|, |line|)]
    ensures r.Failure? ==> r.error.MissingExit? || r.error.BadCount?
  {
    var row := ZipDict(header, line);
    if ExitColumn !in row then Failure(MissingExit)
    else
      var destination := row[ExitColumn];
      var sources := Sources(Dedup(header[..Min(|header|, |line|)]), destination);
      match Additions(sources, destination, row, parse)
      case Failure(e) => Failure(e)
      case Success(adds) => Success(adds)
  }

  /** A data row never yields a self-edge, nor an edge from the `exit` column. */
  lemma RowAdditionsNoSelfEdge(header: seq<string>, line: seq<string>, parse: string -> Option<real>)
    requires RowAdditions(header, line, parse).Success?
    ensures forall a :: a in RowAdditions(header, line, parse).value ==>
              a.source != a.destination && a.source != ExitColumn
              && a.destination == ZipDict(header, line)[ExitColumn]
  {
  }

  /**
   * The origin column of each addition, in order.
   * The ensures only restate the comprehension, for the solver's benefit; they are not a property.
   */
  function SourcesOf(adds: seq<Addition>): (sources: seq<string>)
    ensures |sources| == |adds|
    ensures forall i :: 0 <= i < |adds| ==> sources[i] == adds[i].source
  {
    seq(|adds|, i requires 0 <= i < |adds| => adds[i].source)
  }

  /**
   * Exactly the origin columns named in the zipped header, other than `exit`
   * and the row's exit station, contribute, each once.
   */
  lemma RowAdditionsSources(header: seq<string>, line: seq<string>, parse: string -> Option<real>)
    requires RowAdditions(header, line, parse).Success?
    ensures var sources := SourcesOf(RowAdditions(header, line, parse).value);
            var destination := ZipDict(header, line)[ExitColumn];
            && (forall x :: x in sources <==>
                  x in header[..Min(|header|, |line|)] && x != ExitColumn && x != destination)
            && (forall i, j :: 0 <= i < j < |sources| ==> sources[i] != sources[j])
  {
  }

  /**
   * A successful row, cell by cell: the additions follow the dict's key order
   * with `exit` and the exit station filtered out, each goes to the exit
   * station, and each carries the count read from its own origin's cell.
   */
  lemma RowAdditionsCells(header: seq<string>, line: seq<string>, parse: string -> Option<real>)
    requires RowAdditions(header, line, parse).Success?
    ensures ExitColumn in ZipDict(header, line)
    ensures var adds := RowAdditions(header, line, parse).value;
            var row := ZipDict(header, line);
            && SourcesOf(adds) == Sources(Dedup(header[..Min(|header|, |line|)]), row[ExitColumn])
            && forall i :: 0 <= i < |adds| ==>
                 && adds[i].source in row
                 && adds[i].destination == row[ExitColumn]
                 && CellCount(row[adds[i].source], parse) == Success(adds[i].count)
  {
    var row := ZipDict(header, line);
    var adds := RowAdditions(header, line, parse).value;
    var sources := Sources(Dedup(header[..Min(|header|, |line|)]), row[ExitColumn]);
    assert adds == Additions(sources, row[ExitColumn], row, parse).value;
    assert SourcesOf(adds) == sources;
  }

  /**
   * Reference sum, independent of the reader: the counts read from the cells
   * of those origins whose sorted pair with the destination is `key`.
   * An origin without a readable cell adds nothing.
   */
  function CellGain(origins: seq<string>, destination: string, row: map<string, string>,
                    parse: string -> Option<real>, key: Pair): real
  {
    if |origins| == 0 then 0.0
    else
      var here :=
        if origins[0] in row && SortedPair(origins[0], destination) == key && CellCount(row[origins[0]], parse).Success?
        then CellCount(row[origins[0]], parse).value
        else 0.0;
      here + CellGain(origins[1..], destination, row, parse, key)
  }

  /** The additions of a list of origins that land on `key` sum to the origins' cell gain. */
  lemma {:induction false} AdditionsGain(sources: seq<string>, destination: string, row: map<string, string>,
                                         parse: string -> Option<real>, key: Pair)
    requires forall s :: s in sources ==> s in row
    requires Additions(sources, destination, row, parse).Success?
    ensures AdditionTotal(Hits(Additions(sources, destination, row, parse).value, key))
            == CellGain(sources, destination, row, parse, key)
    decreases |sources|
  {
    if |sources| > 0 {
      var adds := Additions(sources, destination, row, parse).value;
      var tail := Additions(sources[1..], destination, row, parse);
      assert tail.Success?;
      assert adds[1..] == tail.value;
      AdditionsGain(sources[1..], destination, row, parse, key);
      var hits := Hits(adds, key);
      var rest := Hits(adds[1..], key);
      if SortedPair(sources[0], destination) == key {
        assert hits == [adds[0]] + rest;
        assert hits[1..] == rest;
      } else {
        assert hits == rest;
      }
    }
  }

  /** Over a whole row, the additions landing on `key` sum to the cell gain of the row's origins. */
  lemma RowAdditionsGain(header: seq<string>, line: seq<string>, parse: string -> Option<real>, key: Pair)
    requires RowAdditions(header, line, parse).Success?
    ensures ExitColumn in ZipDict(header, line)
    ensures var row := ZipDict(header, line);
            AdditionTotal(Hits(RowAdditions(header, line, parse).value, key))
            == CellGain(Sources(Dedup(header[..Min(|header|, |line|)]), row[ExitColumn]), row[ExitColumn], row, parse, key)
  {
    var row := ZipDict(header, line);
    var sources := Sources(Dedup(header[..Min(|header|, |line|)]), row[ExitColumn]);
    AdditionsGain(sources, row[ExitColumn], row, parse, key);
  }

  /** Cells beyond the header's width are dropped by `zip` and change nothing. */
  lemma ExtraCellsIgnored(header: seq<string>, line: seq<string>, parse: string -> Option<real>)
    requires |line| > |header|
    ensures RowAdditions(header, line, parse) == RowAdditions(header, line[..|header|], parse)
  {
    assert line[..|header|][..|header|] == line[..|header|];
  }

  /** `_add_count` applied to each addition of a row, in order. */
  function AddAll(t: Table, adds: seq<Addition>): Table
    decreases |adds|
  {
    if |adds| == 0 then t
    else AddAll(AddCount(t, adds[0].source, adds[0].destination, adds[0].count), adds[1..])
  }

  function AdditionTotal(adds: seq<Addition>): real
  {
    if |adds| == 0 then 0.0 else adds[0].count + AdditionTotal(adds[1..])
  }

  /** The table's total grows by exactly the sum of the added counts. */
  lemma {:induction false} AddAllTotal(t: Table, adds: seq<Addition>)
    ensures Total(AddAll(t, adds)) == Total(t) + AdditionTotal(adds)
    decreases |adds|
  {
    if |adds| > 0 {
      AddAllTotal(AddCount(t, adds[0].source, adds[0].destination, adds[0].count), adds[1..]);
    }
  }

  /** The additions of a row that land on the edge `key`. */
  function Hits(adds: seq<Addition>, key: Pair): (hits: seq<Addition>)
    ensures forall a :: a in hits <==> a in adds && SortedPair(a.source, a.destination) == key
    decreases |adds|
  {
    if |adds| == 0 then []
    else
      var rest := Hits(adds[1..], key);
      assert adds == [adds[0]] + adds[1..];
      if SortedPair(adds[0].source, adds[0].destination) == key then [adds[0]] + rest else rest
  }

  /**
   * Reading a row, key by key: the weight `get(key, 0)` grows by exactly the
   * counts of the additions that land on `key`.
   */
  lemma {:induction false} AddAllCount(t: Table, adds: seq<Addition>, key: Pair)
    ensures CountOr0(AddAll(t, adds), key) == CountOr0(t, key) + AdditionTotal(Hits(adds, key))
    decreases |adds|
  {
    if |adds| > 0 {
      var a := adds[0];
      var pair := SortedPair(a.source, a.destination);
      var t1 := Upsert(t, pair, a.count);
      assert AddAll(t, adds) == AddAll(t1, adds[1..]);
      AddAllCount(t1, adds[1..], key);
      if pair == key {
        UpsertFindsKey(t, key, a.count);
        assert Hits(adds, key) == [a] + Hits(adds[1..], key);
      } else {
        UpsertKeepsOther(t, pair, a.count, key);
        assert Hits(adds, key) == Hits(adds[1..], key);
      }
    }
  }

  /**
   * A key some addition lands on is present afterwards; a key no addition
   * lands on keeps exactly what it had (present or not).
   */
  lemma {:induction false} AddAllFound(t: Table, adds: seq<Addition>, key: Pair)
    ensures |Hits(adds, key)| > 0 ==> Lookup(AddAll(t, adds), key).Some?
    ensures |Hits(adds, key)| == 0 ==> Lookup(AddAll(t, adds), key) == Lookup(t, key)
    decreases |adds|
  {
    if |adds| > 0 {
      var a := adds[0];
      var pair := SortedPair(a.source, a.destination);
      var t1 := Upsert(t, pair, a.count);
      assert AddAll(t, adds) == AddAll(t1, adds[1..]);
      AddAllFound(t1, adds[1..], key);
      if pair == key {
        UpsertFindsKey(t, key, a.count);
        if |Hits(adds[1..], key)| == 0 {
          assert Lookup(AddAll(t, adds), key) == Lookup(t1, key);
        }
      } else {
        UpsertKeepsOther(t, pair, a.count, key);
        assert Hits(adds, key) == Hits(adds[1..], key);
      }
    }
  }

  /** Every key is a strictly increasing pair: the edge is sorted and never a loop. */
  predicate StrictKeys(t: Table)
  {
    forall i :: 0 <= i < |t| ==> Less(t[i].key.0, t[i].key.1)
  }

  /** Every key is made of tab-free codes. */
  predicate TabFreeKeys(t: Table)
  {
    forall i :: 0 <= i < |t| ==> TabFree(t[i].key.0) && TabFree(t[i].key.1)
  }

  /** A table as a dict holds it: one entry per key, each key sorted and loop-free. */
  predicate WellFormed(t: Table)
  {
    DistinctKeys(t) && StrictKeys(t)
  }

  /** Adding one non-loop edge keeps a table well formed, and tab-free if its codes are. */
  lemma AddCountKeeps(t: Table, a: Addition)
    requires WellFormed(t) && a.source != a.destination
    ensures WellFormed(AddCount(t, a.source, a.destination, a.count))
    ensures TabFreeKeys(t) && TabFree(a.source) && TabFree(a.destination) ==>
              TabFreeKeys(AddCount(t, a.source, a.destination, a.count))
  {
    var key := SortedPair(a.source, a.destination);
    SortedPairStrict(a.source, a.destination);
    UpsertDistinct(t, key, a.count);
    var r := AddCount(t, a.source, a.destination, a.count);
    assert Keys(r) == if key in Keys(t) then Keys(t) else Keys(t) + [key];
    forall i | 0 <= i < |r| ensures Less(r[i].key.0, r[i].key.1)
    {
      assert Keys(r)[i] == r[i].key;
      if i < |t| { assert Keys(t)[i] == t[i].key; }
    }
    if TabFreeKeys(t) && TabFree(a.source) && TabFree(a.destination) {
      forall i | 0 <= i < |r| ensures TabFree(r[i].key.0) && TabFree(r[i].key.1)
      {
        assert Keys(r)[i] == r[i].key;
        if i < |t| { assert Keys(t)[i] == t[i].key; }
      }
    }
  }

  lemma {:induction false} AddAllKeeps(t: Table, adds: seq<Addition>)
    requires WellFormed(t)
    requires forall i :: 0 <= i < |adds| ==> adds[i].source != adds[i].destination
    ensures WellFormed(AddAll(t, adds))
    ensures TabFreeKeys(t) && (forall i :: 0 <= i < |adds| ==> TabFree(adds[i].source) && TabFree(adds[i].destination))
            ==> TabFreeKeys(AddAll(t, adds))
    decreases |adds|
  {
    if |adds| > 0 {
      AddCountKeeps(t, adds[0]);
      AddAllKeeps(AddCount(t, adds[0].source, adds[0].destination, adds[0].count), adds[1..]);
    }
  }

  /**
   * `step`: dispatch on the current state.  The first row is ignored, the
   * second becomes the header, later rows add weights, and after `finish`
   * every step raises.
   */
  function Step(reader: Reader, line: seq<string>, parse: string -> Option<real>): (r: Result<Reader, ReadError>)
    ensures r == Failure(Finalized) <==> reader.End?
    ensures reader.Waiting? ==> r == Success(ReadOrigin)
    ensures reader.ReadOrigin? ==> (r.Success? <==> |line| > 0)
    ensures reader.ReadOrigin? && |line| == 0 ==> r == Failure(EmptyHeader)
    ensures reader.ReadOrigin? && r.Success? ==>
              && r.value.ReadRow? && r.value.table == []
              && |r.value.header| == |line| && r.value.header[0] == ExitColumn
              && r.value.header[1..] == line[1..]
    ensures reader.ReadRow? ==> (r.Success? <==> RowAdditions(reader.header, line, parse).Success?)
    ensures reader.ReadRow? && RowAdditions(reader.header, line, parse).Failure? ==>
              r == Failure(RowAdditions(reader.header, line, parse).error)
    ensures reader.ReadRow? && r.Success? ==>
              && r.value.ReadRow? && r.value.header == reader.header
              && RowAdditions(reader.header, line, parse).Success?
              && Total(r.value.table) == Total(reader.table)
                 + AdditionTotal(RowAdditions(reader.header, line, parse).value)
  {
    match reader
    case Waiting => Success(ReadOrigin)
    case ReadOrigin =>
      if |line| == 0 then Failure(EmptyHeader)
      else Success(ReadRow(line[0 := ExitColumn], []))
    case ReadRow(header, table) =>
      (match RowAdditions(header, line, parse)
       case Failure(e) => Failure(e)
       case Success(adds) =>
         AddAllTotal(table, adds);
         Success(ReadRow(header, AddAll(table, adds))))
    case End(_) => Failure(Finalized)
  }

  /**
   * A data row, edge by edge: each sorted pair gains exactly the counts of the
   * row's origins that land on it, read from their cells, and is then present;
   * every pair the row does not touch keeps its weight.
   */
  lemma RowStepWeights(reader: Reader, line: seq<string>, parse: string -> Option<real>, key: Pair)
    requires reader.ReadRow? && Step(reader, line, parse).Success?
    ensures var adds := RowAdditions(reader.header, line, parse).value;
            var after := TableOf(Step(reader, line, parse).value);
            && CountOr0(after, key) == CountOr0(reader.table, key) + AdditionTotal(Hits(adds, key))
            && (|Hits(adds, key)| > 0 ==> Lookup(after, key).Some?)
            && (|Hits(adds, key)| == 0 ==> Lookup(after, key) == Lookup(reader.table, key))
    ensures ExitColumn in ZipDict(reader.header, line)
    ensures var row := ZipDict(reader.header, line);
            var origins := Sources(Dedup(reader.header[..Min(|reader.header|, |line|)]), row[ExitColumn]);
            CountOr0(TableOf(Step(reader, line, parse).value), key)
            == CountOr0(reader.table, key) + CellGain(origins, row[ExitColumn], row, parse, key)
  {
    var adds := RowAdditions(reader.header, line, parse).value;
    assert TableOf(Step(reader, line, parse).value) == AddAll(reader.table, adds);
    AddAllCount(reader.table, adds, key);
    AddAllFound(reader.table, adds, key);
    RowAdditionsGain(reader.header, line, parse, key);
  }

  /** The reader invariant: a header starting with `exit`, and a well-formed table. */
  predicate Valid(r: Reader)
  {
    match r
    case Waiting => true
    case ReadOrigin => true
    case ReadRow(header, table) => |header| > 0 && header[0] == ExitColumn && WellFormed(table)
    case End(table) => WellFormed(table)
  }

  /** Every cell of a CSV row is free of tabs. */
  predicate TabFreeRow(line: seq<string>)
  {
    forall i :: 0 <= i < |line| ==> TabFree(line[i])
  }

  /** The header and all stored codes are tab-free. */
  predicate TabFreeReader(r: Reader)
  {
    match r
    case Waiting => true
    case ReadOrigin => true
    case ReadRow(header, table) => TabFreeRow(header) && TabFreeKeys(table)
    case End(table) => TabFreeKeys(table)
  }

  /** The cell a data row holds under `exit`, its destination code, has no tab. */
  predicate ExitCellTabFree(header: seq<string>, line: seq<string>)
  {
    ExitColumn in ZipDict(header, line) ==> TabFree(ZipDict(header, line)[ExitColumn])
  }

  /** The origin names of a header row, every cell but the first, have no tab. */
  predicate OriginNamesTabFree(line: seq<string>)
  {
    forall j :: 1 <= j < |line| ==> TabFree(line[j])
  }

  /** A header row's origin names, and the exit cell of each data row after it, are tab-free. */
  predicate HeaderCodesTabFree(line: seq<string>, rows: seq<seq<string>>)
  {
    && OriginNamesTabFree(line)
    && (|line| > 0 ==> forall i :: 0 <= i < |rows| ==> ExitCellTabFree(line[0 := ExitColumn], rows[i]))
  }

  /**
   * Only the cells that become station codes must be tab-free in the rows
   * still to come: the header row's origin names and each data row's exit
   * cell.  Count cells and the discarded first row may hold anything.
   */
  predicate CodesTabFree(reader: Reader, rows: seq<seq<string>>)
  {
    match reader
    case Waiting => |rows| > 1 ==> HeaderCodesTabFree(rows[1], rows[2..])
    case ReadOrigin => |rows| > 0 ==> HeaderCodesTabFree(rows[0], rows[1..])
    case ReadRow(header, _) => forall i :: 0 <= i < |rows| ==> ExitCellTabFree(header, rows[i])
    case End(_) => true
  }

  /**
   * A successful step on the first of the remaining rows keeps the reader
   * invariant, and keeps codes tab-free when the code cells of the remaining
   * rows are.
   */
  lemma StepKeepsValid(reader: Reader, rows: seq<seq<string>>, parse: string -> Option<real>)
    requires |rows| > 0 && Valid(reader)
    requires Step(reader, rows[0], parse).Success?
    ensures Valid(Step(reader, rows[0], parse).value)
    ensures TabFreeReader(reader) && CodesTabFree(reader, rows) ==>
              TabFreeReader(Step(reader, rows[0], parse).value) && CodesTabFree(Step(reader, rows[0], parse).value, rows[1..])
  {
    var rest := rows[1..];
    match reader
    case Waiting =>
      assert |rest| > 0 ==> rest[0] == rows[1] && rest[1..] == rows[2..];
    case ReadOrigin =>
      HeaderTabFree(rows[0]);
    case ReadRow(header, table) =>
      RowStepKeepsValid(header, table, rows[0], parse);
      assert forall i :: 0 <= i < |rest| ==> rest[i] == rows[i + 1];
    case End(_) =>
  }

  lemma HeaderTabFree(line: seq<string>)
    requires |line| > 0
    ensures OriginNamesTabFree(line) ==> TabFreeRow(line[0 := ExitColumn])
  {
  }

  lemma RowStepKeepsValid(header: seq<string>, table: Table, line: seq<string>, parse: string -> Option<real>)
    requires WellFormed(table)
    requires RowAdditions(header, line, parse).Success?
    ensures WellFormed(AddAll(table, RowAdditions(header, line, parse).value))
    ensures TabFreeRow(header) && TabFreeKeys(table) && ExitCellTabFree(header, line) ==>
              TabFreeKeys(AddAll(table, RowAdditions(header, line, parse).value))
  {
    var adds := RowAdditions(header, line, parse).value;
    RowAdditionsNoSelfEdge(header, line, parse);
    assert forall i :: 0 <= i < |adds| ==> adds[i] in adds;
    if TabFreeRow(header) && TabFreeKeys(table) && ExitCellTabFree(header, line) {
      RowAdditionsTabFree(header, line, parse);
    }
    AddAllKeeps(table, adds);
  }

  /** With a tab-free header and a tab-free exit cell, every addition has tab-free codes. */
  lemma RowAdditionsTabFree(header: seq<string>, line: seq<string>, parse: string -> Option<real>)
    requires RowAdditions(header, line, parse).Success?
    requires TabFreeRow(header) && ExitCellTabFree(header, line)
    ensures var adds := RowAdditions(header, line, parse).value;
            forall i :: 0 <= i < |adds| ==> TabFree(adds[i].source) && TabFree(adds[i].destination)
  {
    var adds := RowAdditions(header, line, parse).value;
    var n := Min(|header|, |line|);
    var row := ZipDict(header, line);
    RowAdditionsSources(header, line, parse);
    RowAdditionsNoSelfEdge(header, line, parse);
    forall i | 0 <= i < |adds| ensures TabFree(adds[i].source) && TabFree(adds[i].destination)
    {
      assert SourcesOf(adds)[i] in SourcesOf(adds);
      assert adds[i].source in header[..n];
      assert adds[i] in adds;
    }
  }

  /**
   * `finish`: the reader moves to END and returns one edge per key, in
   * insertion order, carrying the accumulated count.
   */
  function Finish(reader: Reader): (r: (Reader, seq<Edge>))
    ensures r.0.End? && TableOf(r.0) == TableOf(reader)
    ensures forall line, parse :: Step(r.0, line, parse) == Failure(Finalized)
    ensures |r.1| == |TableOf(reader)|
    ensures forall i :: 0 <= i < |r.1| ==> r.1[i].count == TableOf(reader)[i].count
    ensures EdgeTotal(r.1) == Total(TableOf(reader))
  {
    EdgesKeepTotal(TableOf(reader));
    (End(TableOf(reader)), Edges(TableOf(reader)))
  }

  /**
   * For a valid reader whose codes hold no tab, the emitted edges are the
   * table's keys: each with source before destination, and no pair twice.
   */
  lemma FinishEdgesSorted(reader: Reader)
    requires Valid(reader) && TabFreeReader(reader)
    ensures var edges := Finish(reader).1;
            && (forall i :: 0 <= i < |edges| ==>
                  (edges[i].source, edges[i].destination) == TableOf(reader)[i].key
                  && Less(edges[i].source, edges[i].destination))
            && (forall i, j :: 0 <= i < j < |edges| ==>
                  (edges[i].source, edges[i].destination) != (edges[j].source, edges[j].destination))
  {
  }

  /** Feed every row in turn, stopping at the first error. */
  function Steps(reader: Reader, rows: seq<seq<string>>, parse: string -> Option<real>): Result<Reader, ReadError>
    decreases |rows|
  {
    if |rows| == 0 then Success(reader)
    else match Step(reader, rows[0], parse)
      case Failure(e) => Failure(e)
      case Success(next) => Steps(next, rows[1..], parse)
  }

  /** `load_ridership_data` without the file: all rows through a fresh reader, then finish. */
  function LoadRidership(rows: seq<seq<string>>, parse: string -> Option<real>): Result<seq<Edge>, ReadError>
  {
    match Steps(New(), rows, parse)
    case Failure(e) => Failure(e)
    case Success(reader) => Success(Finish(reader).1)
  }

  /** Successful steps from a valid reader keep it valid (and tab-free when the code cells are). */
  lemma StepsKeepValid(reader: Reader, rows: seq<seq<string>>, parse: string -> Option<real>)
    requires Valid(reader)
    requires Steps(reader, rows, parse).Success?
    ensures Valid(Steps(reader, rows, parse).value)
    ensures TabFreeReader(reader) && CodesTabFree(reader, rows) ==> TabFreeReader(Steps(reader, rows, parse).value)
  {
    StepsValid(reader, rows, parse);
    if TabFreeReader(reader) && CodesTabFree(reader, rows) {
      StepsTabFree(reader, rows, parse);
    }
  }

  lemma {:induction false} StepsValid(reader: Reader, rows: seq<seq<string>>, parse: string -> Option<real>)
    requires Valid(reader)
    requires Steps(reader, rows, parse).Success?
    ensures Valid(Steps(reader, rows, parse).value)
    decreases |rows|
  {
    if |rows| > 0 {
      StepKeepsValid(reader, rows, parse);
      StepsValid(Step(reader, rows[0], parse).value, rows[1..], parse);
    }
  }

  lemma {:induction false} StepsTabFree(reader: Reader, rows: seq<seq<string>>, parse: string -> Option<real>)
    requires Valid(reader) && TabFreeReader(reader) && CodesTabFree(reader, rows)
    requires Steps(reader, rows, parse).Success?
    ensures TabFreeReader(Steps(reader, rows, parse).value)
    decreases |rows|
  {
    if |rows| > 0 {
      StepKeepsValid(reader, rows, parse);
      StepsTabFree(Step(reader, rows[0], parse).value, rows[1..], parse);
    }
  }

  /**
   * On a ridership file whose code cells hold no tab, every loaded edge has
   * its source strictly before its destination (so no loops), and no pair of
   * stations appears twice.
   */
  lemma LoadRidershipEdges(rows: seq<seq<string>>, parse: string -> Option<real>)
    requires CodesTabFree(New(), rows)
    requires LoadRidership(rows, parse).Success?
    ensures var edges := LoadRidership(rows, parse).value;
            && (forall i :: 0 <= i < |edges| ==> Less(edges[i].source, edges[i].destination))
            && (forall i, j :: 0 <= i < j < |edges| ==>
                  (edges[i].source, edges[i].destination) != (edges[j].source, edges[j].destination))
  {
    StepsKeepValid(New(), rows, parse);
    FinishEdgesSorted(Steps(New(), rows, parse).value);
  }

  /** Whatever the first row holds, it has no effect on the loaded graph. */
  lemma FirstRowIgnored(first: seq<string>, other: seq<string>, rows: seq<seq<string>>,
                        parse: string -> Option<real>)
    ensures LoadRidership([first] + rows, parse) == LoadRidership([other] + rows, parse)
  {
  }
}

=== FILE: key_codec.dfy ===
/**
 * The string form of an edge key in the ridership table: the two sorted
 * station codes joined by a tab, and Python's `str.split('\t')` that takes
 * such a key apart again when the edges are emitted.
 */
module KeyCodec {

  predicate TabFree(s: string)
  {
    '\t' !in s
  }

  /** `'\t'.join([source, destination])`. */
  function JoinKey(source: string, destination: string): string
  {
    source + "\t" + destination
  }

  /** `s.split('\t')`: the pieces between tabs, always at least one. */
  function Split(s: string): (pieces: seq<string>)
    ensures |pieces| >= 1
    ensures forall i :: 0 <= i < |pieces| ==> TabFree(pieces[i])
  {
    if |s| == 0 then [""]
    else
      var rest := Split(s[1..]);
      if s[0] == '\t' then [""] + rest
      else [[s[0]] + rest[0]] + rest[1..]
  }

  /** `'\t'.join(pieces)` for a non-empty list of pieces. */
  function JoinAll(pieces: seq<string>): string
    requires |pieces| >= 1
  {
    if |pieces| == 1 then pieces[0]
    else pieces[0] + "\t" + JoinAll(pieces[1..])
  }

  /** Joining the pieces of a split gives back the original string. */
  lemma {:induction false} JoinAllSplit(s: string)
    ensures JoinAll(Split(s)) == s
    decreases |s|
  {
    if |s| > 0 {
      var rest := Split(s[1..]);
      JoinAllSplit(s[1..]);
      if s[0] == '\t' {
        assert ([""] + rest)[1..] == rest;
      } else {
        var pieces := [[s[0]] + rest[0]] + rest[1..];
        assert pieces[1..] == rest[1..];
        if |rest| > 1 {
          assert JoinAll(rest) == rest[0] + "\t" + JoinAll(rest[1..]);
        }
      }
    }
  }

  /** A string without tabs splits into itself alone. */
  lemma {:induction false} SplitTabFree(s: string)
    requires TabFree(s)
    ensures Split(s) == [s]
    decreases |s|
  {
    if |s| > 0 {
      SplitTabFree(s[1..]);
      assert s == [s[0]] + s[1..];
    }
  }

  /** A tab-free head followed by a tab splits off as the first piece. */
  lemma {:induction false} SplitAfterHead(head: string, tail: string)
    requires TabFree(head)
    ensures Split(head + "\t" + tail) == [head] + Split(tail)
    decreases |head|
  {
    var s := head + "\t" + tail;
    if |head| == 0 {
      assert s[1..] == tail;
    } else {
      assert s[1..] == head[1..] + "\t" + tail;
      SplitAfterHead(head[1..], tail);
      assert [head[0]] + head[1..] == head;
    }
  }

  /** Splitting a join of tab-free pieces recovers the pieces. */
  lemma {:induction false} SplitJoinAll(pieces: seq<string>)
    requires |pieces| >= 1
    requires forall i :: 0 <= i < |pieces| ==> TabFree(pieces[i])
    ensures Split(JoinAll(pieces)) == pieces
    decreases |pieces|
  {
    if |pieces| == 1 {
      SplitTabFree(pieces[0]);
    } else {
      SplitJoinAll(pieces[1..]);
      SplitAfterHead(pieces[0], JoinAll(pieces[1..]));
      assert [pieces[0]] + pieces[1..] == pieces;
    }
  }

  /** The first two pieces of a key, as `_make_output` reads them. */
  function KeyPieces(key: string): (p: (string, string))
    requires '\t' in key
    ensures TabFree(p.0) && TabFree(p.1)
  {
    SplitHasTwo(key);
    var pieces := Split(key);
    (pieces[0], pieces[1])
  }

  /** A string containing a tab splits into at least two pieces. */
  lemma {:induction false} SplitHasTwo(s: string)
    requires '\t' in s
    ensures |Split(s)| >= 2
    decreases |s|
  {
    if s[0] != '\t' {
      SplitHasTwo(s[1..]);
    }
  }

  /** Splitting a joined key returns the two codes when neither holds a tab. */
  lemma KeyRoundTrip(source: string, destination: string)
    ensures TabFree(source) && TabFree(destination) ==>
              KeyPieces(JoinKey(source, destination)) == (source, destination)
  {
    if TabFree(source) && TabFree(destination) {
      SplitAfterHead(source, destination);
      SplitTabFree(destination);
    }
  }

  /**
   * With a tab inside a code the string key stops identifying the pair: two
   * different pairs share one key, and splitting it yields neither.
   */
  lemma KeyCollision()
    ensures JoinKey("A\tB", "C") == JoinKey("A", "B\tC")
    ensures KeyPieces(JoinKey("A\tB", "C")) == ("A", "B")
  {
    SplitAfterHead("A", "B\tC");
    SplitAfterHead("B", "C");
    SplitTabFree("C");
  }
}

=== FILE: population_sums.dfy ===
/**
 * Population per geohash cell: each hash's bounding box is reordered from
 * (latitude, longitude) corners into the (x, y) = (longitude, latitude)
 * corners the raster reader expects, the pixels read are clipped at zero and
 * summed, and cells outside the raster are skipped.  The geohash library's
 * `bounds` and the raster's box reader are parameters.
 */
module PopulationSums {
  import opened Wrappers
  import opened GeohashEnumerator

  /** A geographic point as the geohash library returns it. */
  datatype LatLon = LatLon(lat: real, lon: real)

  /** A raster coordinate: x is longitude, y is latitude. */
  datatype XY = XY(x: real, y: real)

  /** The two corners `read_box` receives, `[[x1, y1], [x2, y2]]`. */
  datatype Box = Box(first: XY, second: XY)

  /** `geolib.geohash.bounds`: south-west and north-east corners. */
  datatype Bounds = Bounds(sw: LatLon, ne: LatLon)

  /** `PopulationGrid`: a geohash and its estimated population. */
  datatype PopulationGrid = PopulationGrid(geohash: string, population: real)

  /** The corner list handed to `read_box`: each corner with its two coordinates swapped. */
  function BoxCorners(b: Bounds): (box: Box)
    ensures box.first.x == b.sw.lon && box.first.y == b.sw.lat
    ensures box.second.x == b.ne.lon && box.second.y == b.ne.lat
  {
    Box(XY(b.sw.lon, b.sw.lat), XY(b.ne.lon, b.ne.lat))
  }

  /** `numpy.clip(pixels, 0, None)`. */
  function Clip(pixels: seq<real>): (r: seq<real>)
    ensures |r| == |pixels|
    ensures forall i :: 0 <= i < |r| ==> r[i] >= 0.0
    ensures forall i :: 0 <= i < |r| ==> (pixels[i] >= 0.0 ==> r[i] == pixels[i])
    ensures forall i :: 0 <= i < |r| ==> (pixels[i] < 0.0 ==> r[i] == 0.0)
  {
    seq(|pixels|, i requires 0 <= i < |pixels| => if pixels[i] < 0.0 then 0.0 else pixels[i])
  }

  /** `numpy.sum`. */
  function Sum(pixels: seq<real>): real
  {
    if |pixels| == 0 then 0.0 else pixels[0] + Sum(pixels[1..])
  }

  /** A sum of non-negative values is non-negative. */
  lemma {:induction false} SumNonNegative(pixels: seq<real>)
    requires forall i :: 0 <= i < |pixels| ==> pixels[i] >= 0.0
    ensures Sum(pixels) >= 0.0
    decreases |pixels|
  {
    if |pixels| > 0 {
      SumNonNegative(pixels[1..]);
    }
  }

  /**
   * `read_box`: the clipped pixels of the box, or `None` when the raster
   * reader rejects the box as out of bounds (`readRaw` returns `None`).
   */
  function ReadBox(readRaw: Box -> Option<seq<real>>, box: Box): (r: Option<seq<real>>)
    ensures r.None? <==> readRaw(box).None?
    ensures r.Some? ==> r.value == Clip(readRaw(box).value)
  {
    match readRaw(box)
    case None => None
    case Some(pixels) => Some(Clip(pixels))
  }

  /**
   * `get_sum`: `None` exactly when the reordered box cannot be read;
   * otherwise the hash with the sum of its clipped pixels, never negative.
   */
  function GetSum(geohash: string, bounds: string -> Bounds, readRaw: Box -> Option<seq<real>>)
    : (r: Option<PopulationGrid>)
    ensures r.None? <==> readRaw(BoxCorners(bounds(geohash))).None?
    ensures r.Some? ==> r.value.geohash == geohash && r.value.population >= 0.0
    ensures r.Some? ==> r.value.population == Sum(Clip(readRaw(BoxCorners(bounds(geohash))).value))
  {
    match ReadBox(readRaw, BoxCorners(bounds(geohash)))
    case None => None
    case Some(pixels) =>
      SumNonNegative(pixels);
      Some(PopulationGrid(geohash, Sum(pixels)))
  }

  /** `filter(lambda x: x is not None, map(get_sum, hashes))`. */
  function SumsOf(hashes: seq<string>, bounds: string -> Bounds, readRaw: Box -> Option<seq<real>>)
    : (r: seq<PopulationGrid>)
    ensures |r| <= |hashes|
    ensures forall g :: g in r ==> g.geohash in hashes && GetSum(g.geohash, bounds, readRaw) == Some(g)
    ensures forall h :: h in hashes && GetSum(h, bounds, readRaw).Some? ==> GetSum(h, bounds, readRaw).value in r
  {
    if |hashes| == 0 then []
    else
      var rest := SumsOf(hashes[1..], bounds, readRaw);
      assert hashes == [hashes[0]] + hashes[1..];
      match GetSum(hashes[0], bounds, readRaw)
      case None => rest
      case Some(g) => [g] + rest
  }

  /** The kept results stay in enumeration order. */
  lemma {:induction false} SumsOfAppend(a: seq<string>, b: seq<string>, bounds: string -> Bounds,
                                        readRaw: Box -> Option<seq<real>>)
    ensures SumsOf(a + b, bounds, readRaw) == SumsOf(a, bounds, readRaw) + SumsOf(b, bounds, readRaw)
    decreases |a|
  {
    if |a| == 0 {
      assert a + b == b;
    } else {
      assert (a + b)[1..] == a[1..] + b;
      SumsOfAppend(a[1..], b, bounds, readRaw);
    }
  }

  /** No geohash occurs twice among the cells. */
  predicate DistinctCells(cells: seq<PopulationGrid>)
  {
    forall i, j :: 0 <= i < j < |cells| ==> cells[i].geohash != cells[j].geohash
  }

  /** Distinct hashes give results with distinct hashes. */
  lemma {:induction false} SumsOfDistinct(hashes: seq<string>, bounds: string -> Bounds,
                                          readRaw: Box -> Option<seq<real>>)
    requires Distinct(hashes)
    ensures DistinctCells(SumsOf(hashes, bounds, readRaw))
    decreases |hashes|
  {
    if |hashes| > 0 {
      var tail := hashes[1..];
      assert Distinct(tail) by {
        forall i, j | 0 <= i < j < |tail| ensures tail[i] != tail[j] {
          assert tail[i] == hashes[i + 1] && tail[j] == hashes[j + 1];
        }
      }
      SumsOfDistinct(tail, bounds, readRaw);
      var rest := SumsOf(tail, bounds, readRaw);
      match GetSum(hashes[0], bounds, readRaw)
      case None =>
      case Some(g) =>
        assert hashes[0] !in tail;
        ConsDistinct(g, rest);
    }
  }

  lemma ConsDistinct(g: PopulationGrid, rest: seq<PopulationGrid>)
    requires DistinctCells(rest)
    requires forall c :: c in rest ==> c.geohash != g.geohash
    ensures DistinctCells([g] + rest)
  {
  }

  /**
   * `get_sums` over the first `fuel` hashes of the walk from `StartGeohash`:
   * each cell appears at most once, lies in the allowed area (or is the start),
   * and has a non-negative population.
   */
  function GetSums(neighbours: string -> seq<string>, bounds: string -> Bounds,
                   readRaw: Box -> Option<seq<real>>, fuel: nat): (r: seq<PopulationGrid>)
    ensures DistinctCells(r)
    ensures forall i :: 0 <= i < |r| ==>
              (r[i].geohash == StartGeohash || Allowed(r[i].geohash)) && r[i].population >= 0.0
  {
    GetSumsFacts(neighbours, bounds, readRaw, fuel);
    SumsOf(Enumerate(New(StartGeohash), neighbours, fuel), bounds, readRaw)
  }

  lemma GetSumsFacts(neighbours: string -> seq<string>, bounds: string -> Bounds,
                     readRaw: Box -> Option<seq<real>>, fuel: nat)
    ensures var r := SumsOf(Enumerate(New(StartGeohash), neighbours, fuel), bounds, readRaw);
            && DistinctCells(r)
            && (forall i :: 0 <= i < |r| ==>
                  (r[i].geohash == StartGeohash || Allowed(r[i].geohash)) && r[i].population >= 0.0)
  {
    var hashes := Enumerate(New(StartGeohash), neighbours, fuel);
    EnumerateFromNew(StartGeohash, neighbours, fuel);
    SumsOfDistinct(hashes, bounds, readRaw);
    var r := SumsOf(hashes, bounds, readRaw);
    forall i | 0 <= i < |r|
      ensures (r[i].geohash == StartGeohash || Allowed(r[i].geohash)) && r[i].population >= 0.0
    {
      assert r[i] in r;
      var k :| 0 <= k < |hashes| && hashes[k] == r[i].geohash;
    }
  }
}

=== FILE: py_dict.dfy ===
/** Python's `dict(pairs)`: built in order, a later pair overwriting an earlier one. */
module PyDict {

  /** `dict(zip(keys, values))` for two lists of equal length. */
  function Dict(keys: seq<string>, values: seq<string>): (d: map<string, string>)
    requires |keys| == |values|
    ensures forall key :: key in d <==> key in keys
  {
    if |keys| == 0 then map[]
    else
      var k := |keys| - 1;
      assert keys == keys[..k] + [keys[k]];
      Dict(keys[..k], values[..k])[keys[k] := values[k]]
  }

  /** Under a repeated key the dict keeps the last value. */
  lemma {:induction false} DictLastWins(keys: seq<string>, values: seq<string>, i: nat)
    requires |keys| == |values| && i < |keys|
    requires forall j :: i < j < |keys| ==> keys[j] != keys[i]
    ensures Dict(keys, values)[keys[i]] == values[i]
    decreases |keys|
  {
    var k := |keys| - 1;
    if i < k {
      var pre, preValues := keys[..k], values[..k];
      assert pre[i] == keys[i] && preValues[i] == values[i];
      assert forall j :: i < j < |pre| ==> pre[j] == keys[j];
      DictLastWins(pre, preValues, i);
      assert keys[k] != keys[i];
    }
  }

  /** Every value of the dict is one of the given values. */
  lemma {:induction false} DictValues(keys: seq<string>, values: seq<string>)
    requires |keys| == |values|
    ensures forall c :: c in Dict(keys, values) ==> Dict(keys, values)[c] in values
    decreases |keys|
  {
    if |keys| > 0 {
      var k := |keys| - 1;
      DictValues(keys[..k], values[..k]);
      assert values == values[..k] + [values[k]];
    }
  }
}

=== FILE: stations.dfy ===
/**
 * Station metadata preparation: the name standardisation applied to both the
 * station-name table and the station GeoJSON, the reverse lookup from name to
 * two-letter code, and the feature filter in front of it.
 */
module Stations {
  import opened Wrappers
  import opened PyDict

  /** Spellings in the source files replaced by the names the dataset uses. */
  const NameTransforms: map<string, string> := map[
    "Berryessa / North San Jos\U{e9}" := "Berryessa/North San Jose",
    "Civic Center" := "Civic Center/UN Plaza",
    "North Concord" := "North Concord/Martinez",
    "El Cerrito Del Norte" := "El Cerrito del Norte",
    "Berkeley" := "Downtown Berkeley",
    "Bayfair" := "Bay Fair",
    "16th Street Mission" := "16th St/Mission",
    "24th Street Mission" := "24th St/Mission",
    "12th Street / Oakland City Center" := "12th St/Oakland City Center",
    "Montgomery Street" := "Montgomery St",
    "Pleasant Hill/Contra Costa Centre" := "Pleasant Hill",
    "Powell Street" := "Powell St",
    "19th Street Oakland" := "19th St/Oakland",
    "Warm Springs/South Fremont" := "Warm Springs",
    "Coliseum/Airport Connector" := "Coliseum"
  ]

  /** GeoJSON features dropped by raw name. */
  const Excludes: seq<string> := ["eBART Transfer"]

  /** `NAME_TRANSFORMS.get(raw, raw)`. */
  function StandardName(raw: string): string
  {
    if raw in NameTransforms then NameTransforms[raw] else raw
  }

  /** No replacement is itself replaced, so standardising twice changes nothing more. */
  lemma StandardNameIdempotent(raw: string)
    ensures StandardName(StandardName(raw)) == StandardName(raw)
  {
    assert forall k :: k in NameTransforms ==> NameTransforms[k] !in NameTransforms;
  }

  /** One row of the station-name CSV: `Two-Letter Station Code`, `Station Name`. */
  datatype NameRow = NameRow(code: string, name: string)

  /**
   * `load_station_names`: standardised station name to code, a later row for
   * the same name overwriting an earlier one.
   */
  function CodesByName(rows: seq<NameRow>): (codes: map<string, string>)
    ensures forall n :: n in codes <==> n in Names(rows)
  {
    Dict(Names(rows), seq(|rows|, i requires 0 <= i < |rows| => rows[i].code))
  }

  /**
   * The standardised name of each row, in order.
   * The ensures only restate the comprehension, for the solver's benefit; they are not a property.
   */
  function Names(rows: seq<NameRow>): (names: seq<string>)
    ensures |names| == |rows|
    ensures forall i :: 0 <= i < |rows| ==> names[i] == StandardName(rows[i].name)
  {
    seq(|rows|, i requires 0 <= i < |rows| => StandardName(rows[i].name))
  }

  /** A name maps to the code of the last row carrying that name. */
  lemma CodesByNameLastWins(rows: seq<NameRow>, i: nat)
    requires i < |rows|
    requires forall j :: i < j < |rows| ==> StandardName(rows[j].name) != StandardName(rows[i].name)
    ensures CodesByName(rows)[StandardName(rows[i].name)] == rows[i].code
  {
    DictLastWins(Names(rows), seq(|rows|, i requires 0 <= i < |rows| => rows[i].code), i);
  }

  /** The part of a GeoJSON station feature the pipeline reads. */
  datatype Feature = Feature(geometryType: string, name: string, coordinates: seq<real>)

  /** `MetadataRecord`: a station's name, position and code. */
  datatype MetadataRecord = MetadataRecord(name: string, latitude: real, longitude: real, code: string)

  datatype StationError =
    | MissingCoordinate(name: string) // IndexError: fewer than two coordinates
    | UnknownStation(name: string)    // KeyError: no code for the standardised name

  /** A feature survives `load_stations`' filters: a Point whose raw name is not excluded. */
  predicate Kept(f: Feature)
  {
    f.geometryType == "Point" && f.name !in Excludes
  }

  /** The two `filter` calls of `load_stations`, in order. */
  function KeptFeatures(features: seq<Feature>): (kept: seq<Feature>)
    ensures forall f :: f in kept <==> f in features && Kept(f)
    ensures |kept| <= |features|
  {
    if |features| == 0 then []
    else
      var rest := KeptFeatures(features[1..]);
      assert features == [features[0]] + features[1..];
      if Kept(features[0]) then [features[0]] + rest else rest
  }

  /** Filtering keeps the surviving features in their original order. */
  lemma {:induction false} KeptFeaturesAppend(a: seq<Feature>, b: seq<Feature>)
    ensures KeptFeatures(a + b) == KeptFeatures(a) + KeptFeatures(b)
    decreases |a|
  {
    if |a| == 0 {
      assert a + b == b;
    } else {
      assert (a + b)[1..] == a[1..] + b;
      KeptFeaturesAppend(a[1..], b);
    }
  }

  /**
   * `simplify_record`: the standardised name, latitude from the second and
   * longitude from the first GeoJSON coordinate, and the name's code.
   */
  function SimplifyRecord(f: Feature, codes: map<string, string>): (r: Result<MetadataRecord, StationError>)
    ensures r.Success? <==> |f.coordinates| >= 2 && StandardName(f.name) in codes
    ensures |f.coordinates| < 2 ==> r == Failure(MissingCoordinate(StandardName(f.name)))
    ensures |f.coordinates| >= 2 && StandardName(f.name) !in codes ==> r == Failure(UnknownStation(StandardName(f.name)))
    ensures r.Success? ==>
              && r.value.name == StandardName(f.name)
              && r.value.code == codes[r.value.name]
              && r.value.latitude == f.coordinates[1]
              && r.value.longitude == f.coordinates[0]
  {
    var name := StandardName(f.name);
    if |f.coordinates| < 2 then Failure(MissingCoordinate(name))
    else if name !in codes then Failure(UnknownStation(name))
    else Success(MetadataRecord(name, f.coordinates[1], f.coordinates[0], codes[name]))
  }

  /** Simplify each feature in order, stopping at the first failure. */
  function SimplifyAll(features: seq<Feature>, codes: map<string, string>)
    : (r: Result<seq<MetadataRecord>, StationError>)
    ensures r.Success? <==> forall i :: 0 <= i < |features| ==> SimplifyRecord(features[i], codes).Success?
    ensures r.Success? ==> |r.value| == |features|
    ensures r.Success? ==> forall i :: 0 <= i < |features| ==> r.value[i] == SimplifyRecord(features[i], codes).value
  {
    if |features| == 0 then Success([])
    else match SimplifyRecord(features[0], codes)
      case Failure(e) => Failure(e)
      case Success(record) =>
        match SimplifyAll(features[1..], codes)
        case Failure(e) => Failure(e)
        case Success(rest) => Success([record] + rest)
  }

  /** `load_stations` without the file: filter, then simplify what is left. */
  function LoadStations(features: seq<Feature>, codes: map<string, string>)
    : Result<seq<MetadataRecord>, StationError>
  {
    SimplifyAll(KeptFeatures(features), codes)
  }

  /**
   * Every loaded record comes from a kept feature and carries that feature's
   * standardised name and its code; non-Point and excluded features never
   * reach the lookup, so they cannot make the load fail.
   */
  lemma LoadStationsRecords(features: seq<Feature>, codes: map<string, string>)
    ensures LoadStations(features, codes).Success? <==>
              forall f :: f in features && Kept(f) ==>
                |f.coordinates| >= 2 && StandardName(f.name) in codes
    ensures LoadStations(features, codes).Success? ==>
              forall r :: r in LoadStations(features, codes).value ==>
                exists f :: f in features && Kept(f) && r.name == StandardName(f.name)
                            && r.code == codes[r.name]
  {
  }

  /** Appending a feature the filters drop leaves the load unchanged. */
  lemma DroppedFeatureIgnored(features: seq<Feature>, f: Feature, codes: map<string, string>)
    requires !Kept(f)
    ensures LoadStations(features + [f], codes) == LoadStations(features, codes)
  {
    KeptFeaturesAppend(features, [f]);
    assert KeptFeatures([f]) == [];
    assert KeptFeatures(features) + [] == KeptFeatures(features);
  }
}

=== FILE: string_order.dfy ===
/**
 * Python's ordering on `str`: lexicographic comparison by code point, with a
 * proper prefix ordered before the longer string.  Dafny's built-in `<` on
 * sequences means "proper prefix", so the order is defined here.
 */
module StringOrder {

  /** `a < b` for Python strings. */
  predicate Less(a: string, b: string)
    decreases |a|
  {
    if |a| == 0 then |b| > 0
    else if |b| == 0 then false
    else if a[0] == b[0] then Less(a[1..], b[1..])
    else a[0] < b[0]
  }

  /** No string is smaller than itself. */
  lemma {:induction false} LessIrreflexive(a: string)
    ensures !Less(a, a)
    decreases |a|
  {
    if |a| > 0 {
      LessIrreflexive(a[1..]);
    }
  }

  /** The order is asymmetric: at most one direction holds. */
  lemma {:induction false} LessAsymmetric(a: string, b: string)
    ensures !(Less(a, b) && Less(b, a))
    decreases |a|
  {
    if |a| > 0 && |b| > 0 && a[0] == b[0] {
      LessAsymmetric(a[1..], b[1..]);
    }
  }

  /** Distinct strings are always comparable. */
  lemma {:induction false} LessTotal(a: string, b: string)
    requires a != b
    ensures Less(a, b) || Less(b, a)
    decreases |a|
  {
    if |a| > 0 && |b| > 0 && a[0] == b[0] {
      assert a == [a[0]] + a[1..] && b == [b[0]] + b[1..];
      LessTotal(a[1..], b[1..]);
    }
  }

  /**
   * `sorted([a, b])` as a pair: Python's sort swaps the two only when the
   * second is strictly smaller than the first.
   */
  function SortedPair(a: string, b: string): (p: (string, string))
    ensures multiset{p.0, p.1} == multiset{a, b}
    ensures !Less(p.1, p.0)
  {
    LessAsymmetric(a, b);
    if Less(b, a) then (b, a) else (a, b)
  }

  /** Sorting a pair forgets the order in which the two were given. */
  lemma SortedPairSymmetric(a: string, b: string)
    ensures SortedPair(a, b) == SortedPair(b, a)
  {
    if a != b {
      LessTotal(a, b);
      LessAsymmetric(a, b);
    }
  }

  /** Two different strings sort into a strictly increasing pair. */
  lemma SortedPairStrict(a: string, b: string)
    requires a != b
    ensures Less(SortedPair(a, b).0, SortedPair(a, b).1)
  {
    LessTotal(a, b);
  }
}

=== FILE: weight_table.dfy ===
/**
 * The reader's weight table: edge counts keyed by the sorted pair of station
 * codes.  Python keeps them in a dict, whose iteration order is the order in
 * which keys were first inserted, so the table is an association list in
 * insertion order.
 */
module WeightTable {
  import opened Wrappers
  import opened StringOrder
  import opened KeyCodec

  type Pair = (string, string)

  datatype Entry = Entry(key: Pair, count: real)

  type Table = seq<Entry>

  /**
   * The keys of a table in insertion order.
   * The ensures only restate the comprehension, for the solver's benefit; they are not a property.
   */
  function Keys(t: Table): (ks: seq<Pair>)
    ensures |ks| == |t|
    ensures forall i :: 0 <= i < |t| ==> ks[i] == t[i].key
  {
    seq(|t|, i requires 0 <= i < |t| => t[i].key)
  }

  /** No key occurs twice, as in a dict. */
  predicate DistinctKeys(t: Table)
  {
    forall i, j :: 0 <= i < j < |t| ==> t[i].key != t[j].key
  }

  /** `weights.get(key)`. */
  function Lookup(t: Table, key: Pair): Option<real>
  {
    if |t| == 0 then None
    else if t[0].key == key then Some(t[0].count)
    else Lookup(t[1..], key)
  }

  /** A key is found exactly when the table holds an entry for it. */
  lemma {:induction false} LookupFindsKeys(t: Table, key: Pair)
    ensures Lookup(t, key).Some? <==> key in Keys(t)
    decreases |t|
  {
    if |t| > 0 {
      LookupFindsKeys(t[1..], key);
      assert Keys(t) == [t[0].key] + Keys(t[1..]);
    }
  }

  /** `weights.get(key, 0)`. */
  function CountOr0(t: Table, key: Pair): real
  {
    match Lookup(t, key)
    case Some(c) => c
    case None => 0.0
  }

  /** Sum of all counts in the table. */
  function Total(t: Table): real
  {
    if |t| == 0 then 0.0 else t[0].count + Total(t[1..])
  }

  /**
   * `weights[key] = weights.get(key, 0) + count`.
   */
  function Upsert(t: Table, key: Pair, count: real): Table
    decreases |t|
  {
    if |t| == 0 then [Entry(key, count)]
    else if t[0].key == key then [Entry(key, t[0].count + count)] + t[1..]
    else [t[0]] + Upsert(t[1..], key, count)
  }

  /** A new key goes to the end, and existing keys keep their positions. */
  lemma {:induction false} UpsertKeys(t: Table, key: Pair, count: real)
    ensures Keys(Upsert(t, key, count)) == if key in Keys(t) then Keys(t) else Keys(t) + [key]
    decreases |t|
  {
    if |t| > 0 {
      assert Keys(t) == [t[0].key] + Keys(t[1..]);
      if t[0].key != key {
        UpsertKeys(t[1..], key, count);
        var r := Upsert(t, key, count);
        assert r == [t[0]] + Upsert(t[1..], key, count);
        assert Keys(r) == [t[0].key] + Keys(Upsert(t[1..], key, count));
      }
    }
  }

  /**
   * The upserted key's count grows by exactly `count`, starting from 0 when
   * absent, and every other key keeps its count.
   */
  lemma UpsertLookup(t: Table, key: Pair, count: real)
    ensures Lookup(Upsert(t, key, count), key) == Some(CountOr0(t, key) + count)
    ensures forall other :: other != key ==> Lookup(Upsert(t, key, count), other) == Lookup(t, other)
  {
  }

  lemma {:induction false} UpsertFindsKey(t: Table, key: Pair, count: real)
    ensures Lookup(Upsert(t, key, count), key) == Some(CountOr0(t, key) + count)
    decreases |t|
  {
    if |t| > 0 && t[0].key != key {
      UpsertFindsKey(t[1..], key, count);
      var r := Upsert(t, key, count);
      assert r[0] == t[0] && r[1..] == Upsert(t[1..], key, count);
      assert Lookup(r, key) == Lookup(r[1..], key);
      assert CountOr0(t, key) == CountOr0(t[1..], key);
    }
  }

  lemma {:induction false} UpsertKeepsOther(t: Table, key: Pair, count: real, other: Pair)
    requires other != key
    ensures Lookup(Upsert(t, key, count), other) == Lookup(t, other)
    decreases |t|
  {
    if |t| > 0 && t[0].key != key {
      UpsertKeepsOther(t[1..], key, count, other);
      assert Upsert(t, key, count)[1..] == Upsert(t[1..], key, count);
    }
  }

  /** Upserting adds exactly `count` to the table's total weight. */
  lemma {:induction false} UpsertTotal(t: Table, key: Pair, count: real)
    ensures Total(Upsert(t, key, count)) == Total(t) + count
    decreases |t|
  {
    if |t| > 0 && t[0].key != key {
      UpsertTotal(t[1..], key, count);
      assert Upsert(t, key, count)[1..] == Upsert(t[1..], key, count);
    } else if |t| > 0 {
      assert Upsert(t, key, count)[1..] == t[1..];
    }
  }

  /** Upserting never creates a second entry for a key. */
  lemma UpsertDistinct(t: Table, key: Pair, count: real)
    requires DistinctKeys(t)
    ensures DistinctKeys(Upsert(t, key, count))
  {
    UpsertKeys(t, key, count);
    var r := Upsert(t, key, count);
    var ks := Keys(r);
    forall i, j | 0 <= i < j < |r| ensures r[i].key != r[j].key {
      assert ks[i] == r[i].key && ks[j] == r[j].key;
      if key !in Keys(t) && j == |t| {
        assert ks[i] == Keys(t)[i];
      } else {
        assert ks[i] == Keys(t)[i] && ks[j] == Keys(t)[j];
      }
    }
  }

  /**
   * `_add_count`: add `count` to the undirected edge between `source` and
   * `destination`, keyed by the sorted pair of the two codes.
   */
  function AddCount(t: Table, source: string, destination: string, count: real): (r: Table)
    ensures Lookup(r, SortedPair(source, destination))
         == Some(CountOr0(t, SortedPair(source, destination)) + count)
    ensures forall other :: other != SortedPair(source, destination) ==> Lookup(r, other) == Lookup(t, other)
    ensures Total(r) == Total(t) + count
    ensures Keys(r) == if SortedPair(source, destination) in Keys(t) then Keys(t)
                       else Keys(t) + [SortedPair(source, destination)]
  {
    UpsertKeys(t, SortedPair(source, destination), count);
    UpsertTotal(t, SortedPair(source, destination), count);
    UpsertLookup(t, SortedPair(source, destination), count);
    Upsert(t, SortedPair(source, destination), count)
  }

  /** `add(a, b, c)` and `add(b, a, c)` produce the same table. */
  lemma AddCountSymmetric(t: Table, a: string, b: string, count: real)
    ensures AddCount(t, a, b, count) == AddCount(t, b, a, count)
  {
    SortedPairSymmetric(a, b);
  }

  /** One edge of the emitted graph, `GraphWeight`. */
  datatype Edge = Edge(source: string, destination: string, count: real)

  /**
   * `_make_output(key, count)`: the edge read back from the tab-joined key.
   * It carries the entry's count, and its endpoints are the key's codes
   * whenever neither contains a tab.
   */
  function MakeOutput(e: Entry): (edge: Edge)
    ensures edge.count == e.count
    ensures TabFree(e.key.0) && TabFree(e.key.1) ==> (edge.source, edge.destination) == e.key
  {
    KeyRoundTrip(e.key.0, e.key.1);
    var pieces := KeyPieces(JoinKey(e.key.0, e.key.1));
    Edge(pieces.0, pieces.1, e.count)
  }

  /**
   * The edges `finish` returns: one per entry, in the table's order, each
   * carrying its entry's count and, when the codes are tab-free, the entry's
   * pair of codes.
   */
  function Edges(t: Table): (edges: seq<Edge>)
    ensures |edges| == |t|
    ensures forall i :: 0 <= i < |t| ==> edges[i].count == t[i].count
    ensures forall i :: 0 <= i < |t| && TabFree(t[i].key.0) && TabFree(t[i].key.1) ==>
              (edges[i].source, edges[i].destination) == t[i].key
  {
    seq(|t|, i requires 0 <= i < |t| => MakeOutput(t[i]))
  }

  /** Sum of the counts carried by a list of edges. */
  function EdgeTotal(edges: seq<Edge>): real
  {
    if |edges| == 0 then 0.0 else edges[0].count + EdgeTotal(edges[1..])
  }

  /** The emitted edges carry exactly the table's total weight. */
  lemma {:induction false} EdgesKeepTotal(t: Table)
    ensures EdgeTotal(Edges(t)) == Total(t)
    decreases |t|
  {
    if |t| > 0 {
      EdgesKeepTotal(t[1..]);
      assert Edges(t)[1..] == Edges(t[1..]);
    }
  }
}

=== FILE: wrappers.dfy ===
/** Failure-carrying result types shared by the pipeline modules. */
module Wrappers {

  /** A value that may be absent, like Python's `Optional`. */
  datatype Option<+T> = None | Some(value: T)

  /** The outcome of an operation that either produces a value or raises. */
  datatype Result<+T, +E> = Success(value: T) | Failure(error: E)
}
